=== FILE: README.md ===
# Kafka vs Redpanda benchmark suite — a Dafny model of its decision logic

The suite runs one load test on Apache Kafka, then the same test on Redpanda, and compares the two. For each platform it does the following:

- It brings the broker up with `docker-compose` and waits until a producer can connect.
- It starts consumers, runs a multi-threaded producer for the configured duration and samples host and container resource usage.
- It writes a result record, then tears the broker down.

A comparison record names a winner per metric. A report generator tallies those winners and prints a summary table.

This project models the deterministic part of that pipeline as pure Dafny functions over immutable datatypes, and proves what each part promises:

- **Stats** (`stats.dfy`): sum/average, `min`/`max`, ascending sort, the consumer's index-based percentile, the "per second when the duration is positive" rule and the bytes→MiB conversion.
- **Consumer** (`consumer.dfy`): per-message counter and latency updates of `KafkaPerformanceConsumer`, the zeroed start of a run, and the final throughput/bandwidth/latency block.
- **Producer** (`producer.dfy`): `send_message` / `send_batch` counters, one producer thread's send loop, per-thread rate, pacing interval, payload padding and final statistics of `KafkaPerformanceProducer`.
- **Monitor** (`monitor.dfy`): `get_summary_stats`, `_parse_container_stats` on a Docker stats record, and the start/record/stop state of `PerformanceMonitor`.
- **Comparison** (`comparison.dfy`): `_generate_comparison`.
  - Throughput and bandwidth are higher-is-better. Latency, CPU and memory are lower-is-better.
  - A missing value counts as 0 in the first case and as +∞ in the second.
  - An equal pair goes to kafka.
- **Orchestrator** (`orchestrator.dfy`): how `TestOrchestrator` makes its decisions:
  - platform-name dispatch and the presets;
  - the preset-plus-override merge;
  - the bounded readiness probe;
  - how `run_single_test` assembles a result from its consumers, producer and monitor;
  - the start → test → always-stop order of a comparison.
- **Report** (`report.dfy`): what `ReportGenerator` computes from a saved comparison:
  - the executive-summary tally and overall winner;
  - the rows of the console summary table, including Python's `str.title` on the winner cell;
  - the configuration shown in the detailed section.

Outcomes of the outside world arrive as parameters:

- whether a broker acknowledged a send;
- the decoded payload of a consumed message and its measured latency;
- whether `docker-compose` succeeded;
- the answers of successive readiness probes;
- host samples and Docker stats records;
- elapsed durations.

Result dicts are datatypes whose `Option` fields mean "key may be absent". Rates and percentages are exact `real`s.

A few rules of the code are worth stating up front:

- A tie goes to kafka; the comparison has no "no winner" outcome.
- The comparison computes no percentage deltas and rejects no configuration mismatch; the producer has no sync/async delivery modes, and `send_message` never retries a send (the client's own `'retries': 3` are folded into the acknowledged or rejected outcome).
- A readiness timeout is not turned into a `False` return. `start_platform` catches only `CalledProcessError`, so the timeout propagates out of `run_comparison_test`: kafka is still stopped, but redpanda is never started.

## Model

| member | source | states |
|---|---|---|
| Stats.Min | src/kafka_consumer.py:164 | the minimum is an element of the list and no element is smaller |
| Stats.Max | src/kafka_consumer.py:165 | the maximum is an element of the list and no element is larger |
| Stats.MeanBetweenMinAndMax | src/kafka_consumer.py:163-165 | sum/len of a non-empty list lies between its min and max |
| Stats.Sort | src/kafka_consumer.py:204 | `sorted` returns an ascending permutation of its input |
| Stats.Insert | src/kafka_consumer.py:204 | inserting into a sorted list keeps it sorted and adds exactly that element |
| Stats.PercentileIndex | src/kafka_consumer.py:205-207 | the index k is floor(p·n/100) clamped to the last position: k < n, k·100 ≤ p·n, and p·n < k·100 + 100 unless k = n−1 |
| Stats.Percentile | src/kafka_consumer.py:199-208 | the percentile of no data is 0; otherwise it is one of the data values |
| Stats.PercentileRank | src/kafka_consumer.py:199-208 | the percentile has rank k = the clamped index in the data: at most k values lie strictly below it and more than k at or below it, i.e. it is sorted(data)[k] |
| Stats.CountBelowPermutation | src/kafka_consumer.py:204 | how many values lie below a bound depends only on the multiset of values, so sorting keeps it |
| Stats.PercentileMonotone | src/kafka_consumer.py:204-208 | a larger p never selects a smaller value, so p95 ≤ p99 |
| Stats.PercentileWithinRange | src/kafka_consumer.py:164-167 | every percentile lies between the minimum and the maximum |
| Stats.PerSecond | src/kafka_consumer.py:157 | the rate times the duration gives back the amount when the duration is positive, else the rate is 0 |
| Stats.ToMiB | src/kafka_consumer.py:158 | MiB figure × 1024² equals the byte count; non-negative for non-negative bytes |
| Consumer.StartConsuming | src/kafka_consumer.py:100-111 | an unconnected consumer raises; a connected one starts from zero counters and empty lists |
| Consumer.ProcessMessage | src/kafka_consumer.py:171-197 | a decodable message adds 1 message and its size; a latency is appended only for a dict with a parseable timestamp; an undecodable one appends one error and moves no counter; latencies never outnumber messages |
| Consumer.CountedOrLogged | src/kafka_consumer.py:171-197 | every delivered message is either counted or logged as exactly one error |
| Consumer.ProcessAll | src/kafka_consumer.py:121-129 | on the confluent client, processing a run's messages adds the decoded count, decoded bytes, the stamped latencies in order and one "Error processing message" line per undecodable message, and the run goes on |
| Consumer.ProcessAllKafkaPython | src/kafka_consumer.py:121-153 | on kafka-python, the messages before the first undecodable one are processed as above; that one logs its exception text without prefix and ends the run; a run where all decode logs nothing |
| Consumer.CleanDeliveriesLogNothing | src/kafka_consumer.py:121-129 | when every message decodes, no error line is logged and no message aborts the run, so both clients leave the same stats |
| Consumer.LatencyFigures | src/kafka_consumer.py:161-167 | avg = sum/len; min and max are measured latencies that bound all others; p95 and p99 are the values of rank floor(95·n/100) and floor(99·n/100), clamped; min ≤ avg ≤ max and min ≤ p95 ≤ p99 ≤ max |
| Consumer.FinalStatistics | src/kafka_consumer.py:155-167 | throughput × duration = messages and bandwidth × duration × 1024² = bytes when the duration is positive, else both 0; latency figures exist exactly when a latency was measured |
| Producer.SendMessage | src/kafka_producer.py:57-91 | disconnected: False and nothing changes; connected: exactly one of sent/failed moves by one; success adds the envelope bytes; failure appends exactly one error |
| Producer.SendBatch | src/kafka_producer.py:93-106 | disconnected returns 0; otherwise returns the number of acknowledged sends (≤ batch size), moves the counters accordingly, and sends each message with its key or None |
| Producer.RunThread | src/kafka_producer.py:135-153 | each loop pass is one attempt; the thread's sent+failed equals the attempts; each message's sequence number is the count of successes before it |
| Producer.SequenceSteps | src/kafka_producer.py:141-150 | such sequence numbers never exceed their position and advance by exactly one after a success, so a failed send is followed by a repeat of its number |
| Producer.FloorDiv | src/kafka_producer.py:130 | Python's `//` rounds toward −∞ for either sign of the divisor |
| Producer.PerThreadRate | src/kafka_producer.py:130 | dividing by zero threads fails; otherwise the result is the floor quotient of rate by threads |
| Producer.PerThreadRateBounds | src/kafka_producer.py:130 | with at least one thread each thread's rate is between 0 and the total rate |
| Producer.PacingInterval | src/kafka_producer.py:137 | a positive rate gives an interval whose product with the rate is 1; a zero rate means unpaced (0) |
| Producer.Padding | src/kafka_producer.py:133 | the padding is all 'x', 100 bytes shorter than the message size, and empty for sizes ≤ 100 |
| Producer.FinalStatistics | src/kafka_producer.py:186-194 | throughput × duration = sent and bandwidth × duration × 1024² = bytes sent when the duration is positive, else both 0 |
| Monitor.Summarize | src/performance_monitor.py:147-152 | avg = sum/len; min ≤ avg ≤ max; min and max are samples and bound every sample |
| Monitor.Growth | src/performance_monitor.py:153-154 | the disk total is the largest difference between two cumulative readings, hence ≥ 0 |
| Monitor.ContainerIndexes | src/performance_monitor.py:160-161 | the indexes are ascending and in range, and are exactly the samples with a non-empty container entry |
| Monitor.ContainerReadings | src/performance_monitor.py:160-161 | one reading per sample with a non-empty container entry, in sample order: reading k is the container entry of the k-th such sample |
| Monitor.ReadingsAreContainerEntries | src/performance_monitor.py:160-161 | the readings are exactly the non-empty container entries of the samples |
| Monitor.SummarizeSystem | src/performance_monitor.py:139-156 | cpu and memory: avg = sum/len over all samples, min and max are samples and bound every sample; each disk total is the largest difference between two readings and is attained, i.e. max − min ≥ 0 |
| Monitor.SummarizeContainers | src/performance_monitor.py:158-171 | a container block exists exactly when the first sample has one; its cpu and memory avg = sum/len over every container reading, and min and max are readings that bound all of them |
| Monitor.GetSummaryStats | src/performance_monitor.py:133-173 | no samples give `{}`; otherwise duration is the number of samples, with the system and container blocks above |
| Monitor.EmptyContainerSampleIgnored | src/performance_monitor.py:159-161 | appending a sample without container figures leaves the container block unchanged |
| Monitor.StartMonitoring | src/performance_monitor.py:29-38 | starting while already monitoring changes nothing; starting from idle clears the metrics |
| Monitor.Record | src/performance_monitor.py:47-55 | a sample is kept only while monitoring |
| Monitor.StopMonitoring | src/performance_monitor.py:40-45 | stopping clears the flag and returns the collected metrics |
| Monitor.WindowCollectsItsSamples | src/performance_monitor.py:29-45 | start, record, stop returns exactly the samples recorded in that window |
| Monitor.RecordAllAppends | src/performance_monitor.py:47-55 | while monitoring, every sample is appended in order |
| Monitor.ParseContainerStats | src/performance_monitor.py:93-131 | figures exist exactly when every read key is present, neither the networks nor the block-I/O data is `null`, and both divisors are non-zero; CPU% × Δsystem = Δtotal × cores × 100, memory% × limit = usage × 100, byte figures × 1024² = the summed counters |
| Monitor.CollectSample | src/performance_monitor.py:83-89 | a sample carries container figures exactly when the stats were read and parsed |
| Monitor.AddedInterfaceCounts | src/performance_monitor.py:109-111 | one more network interface adds its rx/tx bytes to the totals |
| Monitor.OtherOpIgnored | src/performance_monitor.py:114-117 | a block-I/O entry whose op is neither 'Read' nor 'Write' changes nothing |
| Monitor.NullBlockFails | src/performance_monitor.py:108-131 | a `null` 'networks' dict or 'blkio_stats' block makes the parse return `{}` |
| Monitor.MissingOpFails | src/performance_monitor.py:116-131 | an entry without 'op' makes the parse return `{}` |
| Comparison.ProducerViewOf | src/kafka_producer.py:189-194 | the comparison reads the producer's average throughput and bandwidth |
| Comparison.ConsumerViewOf | src/kafka_consumer.py:155-169 | the consumer's latency key exists exactly when a latency was measured |
| Comparison.HigherWins | src/test_orchestrator.py:342-351 | redpanda wins exactly when its value is strictly greater, a missing value reported and compared as 0 |
| Comparison.LowerWins | src/test_orchestrator.py:365-368 | redpanda wins exactly when it has a value and kafka has none or a larger one; missing values are reported as 0 |
| Comparison.GenerateComparison | src/test_orchestrator.py:331-393 | each section exists exactly when both inputs supply it (consumers: non-empty, first entry used); reported values are the inputs or 0; winners follow the rules above |
| Comparison.HigherWinsSwap | src/test_orchestrator.py:345 | swapping the platforms flips the winner unless the values are equal, when kafka wins both ways |
| Comparison.LowerWinsSwap | src/test_orchestrator.py:368 | the same for lower-is-better metrics with missing values as +∞ |
| Comparison.IdenticalResultsFavourKafka | src/test_orchestrator.py:341-388 | comparing a result with itself gives kafka every metric |
| Comparison.StartFailureEmptiesComparison | src/test_orchestrator.py:337-373 | a platform that failed to start contributes no section |
| Comparison.MissingLatencyLoses | src/test_orchestrator.py:366-368 | a platform without a measured latency loses latency to one with a latency, and is reported as 0 |
| Orchestrator.ParsePlatform | src/test_orchestrator.py:155-160 | only 'kafka' and 'redpanda' are accepted; any other name raises |
| Orchestrator.ParseName | src/test_orchestrator.py:63-70 | dispatch maps each platform's name back to that platform |
| Orchestrator.WaitForPlatform | src/test_orchestrator.py:122-147 | at most max_wait probes; success at the first ready probe, with all earlier ones failed; timeout exactly when none of the max_wait probes succeeds |
| Orchestrator.StartPlatform | src/test_orchestrator.py:63-96 | unknown names raise; a failed compose-up returns False; otherwise True exactly when one of the 60 probes succeeds, else the timeout propagates |
| Orchestrator.StopPlatform | src/test_orchestrator.py:98-120 | unknown names raise; otherwise the result is whether compose-down succeeded |
| Orchestrator.PresetsNeverFailLoadTest | src/test_orchestrator.py:39-61 | a predefined test run without overrides has every setting the load test reads and at least one producer thread, so it never fails before sending |
| Orchestrator.EffectiveConfig | src/test_orchestrator.py:162-164 | custom keys override the preset; every other preset key is kept; no other key appears; an unknown test yields just the custom keys |
| Orchestrator.PlainRunUsesPreset | src/test_orchestrator.py:162-164 | without overrides a test runs with exactly its preset |
| Orchestrator.MergeAsWritten | src/test_orchestrator.py:162-164 | the effective config is the merge above, and the stored preset is replaced by it |
| Orchestrator.OverridesLeakIntoLaterRuns | src/test_orchestrator.py:162-164 | after an override, a later plain run of the same preset inherits it |
| Orchestrator.SameOverridesSameConfig | src/test_orchestrator.py:292-311 | both platforms of one comparison run with the same configuration |
| Orchestrator.ConsumerCount | src/test_orchestrator.py:194 | one consumer by default; a negative count starts none |
| Orchestrator.FirstMissing | src/test_orchestrator.py:229-234 | the KeyError names the first setting, in argument order, that the config lacks |
| Orchestrator.LoadTestFailure | src/test_orchestrator.py:229-235 | the load test fails before sending exactly when a setting is missing or the thread count is 0; a missing setting raises the KeyError of the first one in argument order, before any division; with all present, 0 threads raises the division error |
| Orchestrator.SnapshotView | src/test_orchestrator.py:245-249 | an unfinished consumer reports no throughput or latency |
| Orchestrator.ConsumersAccountedFor | src/test_orchestrator.py:194-216 | each consumer yields either stats or one connect error |
| Orchestrator.ConnectErrorsName | src/test_orchestrator.py:215-216 | the connect errors name exactly the consumers that failed to connect |
| Orchestrator.RunSingleTest | src/test_orchestrator.py:149-273 | the corrected run, whose save encodes timestamps: unknown platforms raise and a known platform's test always returns. The result carries the effective config and the monitor summary. A producer that could not connect leaves `{}` plus an error. A load test that raises leaves `{}`, no consumer stats and its error. Otherwise it carries the producer's figures and every connected consumer's stats |
| Orchestrator.CleanRunReportsEveryConsumer | src/test_orchestrator.py:189-250 | a run without errors reports producer figures and one stats dict per configured consumer |
| Orchestrator.ResultsView | src/test_orchestrator.py:177-187 | a test result always carries producer stats, consumer stats, system metrics and config |
| Orchestrator.SaveAsWritten | src/test_orchestrator.py:265-266 | as written, the save either leaves the dict unchanged or raises the TypeError of `json.dump` |
| Orchestrator.RunSingleTestAsWritten | src/test_orchestrator.py:149-273 | as written, a test that returns returns exactly the corrected result, which then holds no datetime, and unknown platforms still raise |
| Orchestrator.CollectedStatsNonEmpty | src/test_orchestrator.py:245-249 | some consumer stats are collected exactly when some consumer connected |
| Orchestrator.AsWrittenTestRaises | src/test_orchestrator.py:265-266 | as written, a known platform's test raises exactly when its producer ran the load test, or the load test did not abort and some consumer connected |
| Orchestrator.LightLoadTestRaises | src/test_orchestrator.py:265-266 | as written, a plain light_load kafka test whose producer connected raises instead of returning |
| Orchestrator.LightLoadComparisonSkipsRedpanda | src/test_orchestrator.py:290-300 | as written, a comparison with that kafka test stops kafka, ends with the TypeError and never starts redpanda |
| Orchestrator.EncodedTestsCompare | src/test_orchestrator.py:275-329 | with both saves encoded (the test's at 265-266 and the comparison's at 325-326), every comparison whose two starts returned starts redpanda and produces its comparison, reading kafka's test result |
| Orchestrator.RunComparisonAsWritten | src/test_orchestrator.py:319-329 | the comparison save as written: the same steps as the encoded run; a raise in either phase propagates; when neither phase raised, the run ends in a TypeError exactly when a returned test dict holds a datetime |
| Orchestrator.ComparisonSaveFollowsTestSaves | src/test_orchestrator.py:265-326 | when every returned test dict holds no datetime, which the as-written test save guarantees, the as-written comparison equals the encoded one: the comparison save cannot raise once reached |
| Orchestrator.TestSaveAloneStillRaises | src/test_orchestrator.py:275-329 | encoding only the test save is not enough: a light_load comparison whose kafka producer connected runs both phases and generates its comparison, then raises at the comparison save |
| Orchestrator.PlatformPhase | src/test_orchestrator.py:292-300 | start first, stop last, a test only after a successful start; a start or a test that raises is re-raised after the stop; otherwise the result is the test's dict or the start-failure dict |
| Orchestrator.RunComparison | src/test_orchestrator.py:275-329 | the comparison with its save encoded: kafka's start comes first; if kafka's start or test raises, the comparison ends with that error; otherwise if redpanda's start or test raises, it ends with that error; when neither raised, the comparison is generated from the two results, with an empty result for a platform that failed to start |
| Orchestrator.RunComparisonTrace | src/test_orchestrator.py:290-311 | kafka is stopped before any redpanda step and every start is followed by its stop; once kafka's start or test raised, kafka's stop ends the trace and no redpanda step happens |
| Orchestrator.RunComparisonTests | src/test_orchestrator.py:292-311 | each platform's test runs exactly when its start returned True (redpanda's only when reached); redpanda is started exactly when kafka's phase did not raise, and its stop then ends the trace |
| Orchestrator.StopsFollowStarts | src/test_orchestrator.py:290-311 | two phases back to back keep kafka's stop before redpanda and each stop after its start |
| Orchestrator.FailedStartEmptiesComparison | src/test_orchestrator.py:296-317 | when either platform failed to start and no phase raised, the comparison has no sections |
| Orchestrator.BothRanComparesAll | src/test_orchestrator.py:313-317 | when both started and both tests returned, producers and resources are compared, consumers exactly when both collected stats |
| Report.Tally | src/report_generator.py:101-112 | the counts are the occurrences of 'kafka' and 'redpanda' among the winners of dict metrics inside dict categories |
| Report.OverallWinner | src/report_generator.py:114 | Redpanda exactly when it has strictly more wins |
| Report.ExecutiveSummary | src/report_generator.py:97-123 | the two counts never exceed the number of winner-bearing metrics; the overall winner follows the strict rule |
| Report.EncodedWinners | src/report_generator.py:105-112 | the saved engine output names exactly the engine's winners, in order |
| Report.EngineTally | src/report_generator.py:105-112 | for engine output each platform is credited with the metrics it won, two wins per section in total |
| Report.IdenticalRunsReadKafka | src/report_generator.py:101-114 | a run compared with itself reads 0 redpanda wins and Kafka overall |
| Report.Title | src/report_generator.py:499 | `str.title`: a letter is upper-cased when it starts a run of letters and lower-cased otherwise |
| Report.TitleIdempotent | src/report_generator.py:499 | title-casing twice changes nothing more |
| Report.TitleOfLowerWord | src/report_generator.py:499 | a word of lower-case letters title-cases to itself with its first letter upper-cased, so the winners 'kafka' and 'redpanda' show as Kafka and Redpanda |
| Report.RowOf | src/report_generator.py:494-500 | a row shows both values (0 when missing) and the title-cased winner ('tie' when missing) |
| Report.Rows | src/report_generator.py:489-549 | on documents whose shown values are numbers and whose winners are strings, the table fails exactly when a listed metric's entry is not a dict |
| Report.RowsRead | src/report_generator.py:489-549 | every row is read from the entry of a listed metric |
| Report.RowsCover | src/report_generator.py:489-549 | every listed metric with an entry gets a row |
| Report.RowsOrdered | src/report_generator.py:489-549 | rows keep the listing order |
| Report.SummaryTable | src/report_generator.py:484-549 | at most 6 rows; on documents whose shown values are numbers and whose winners are strings, fails exactly when some entry is not a dict |
| Report.SummaryTableRows | src/report_generator.py:489-549 | a row exists exactly for each metric present, in the fixed print order, each read from its entry |
| Report.EngineEntry | src/report_generator.py:489-549 | on engine output a row's entry exists exactly when its section was emitted |
| Report.EngineSummaryTable | src/report_generator.py:489-549 | the table of engine output never fails and has a row exactly for the metrics of emitted sections |
| Report.SelectConfig | src/report_generator.py:284-289 | kafka's config when its results carry one (even empty), else redpanda's, else empty |
| Report.ShownConfigIsRunConfig | src/report_generator.py:284-289 | for a completed comparison the config shown is the one the first platform that ran used |

## Left out

- Docker and `docker-compose` calls, container lookup and stats streaming are external I/O. Their outcomes are parameters, such as `composeUp`/`composeDown` or a `DockerStats` record.
- Threads, sleeps and wall-clock loops are concurrency and timing:
  - producer threads, the consumer poll loop, the sampling loop and the join timeouts;
  - a consumer's result is either its final dict or its running counters;
  - counter updates are applied sequentially (the source's shared-counter increments are racy).
- The Kafka client libraries, JSON encoding of messages, UUIDs and ISO-timestamp parsing are foreign code. A send is acknowledged or rejected, a delivery arrives decoded with its latency, and the encoded length of a sent envelope is an input.
- psutil host sampling is a foreign call; a host sample is a parameter.
- HTML, charts, `tabulate` printing, number formatting (`:.2f`) and result/metrics file writing are rendering and I/O.
- Throughput-history entries and progress callbacks only feed output.
- `run_all_tests` runs each preset's comparison in turn and records a raised exception as `{'test_name', 'error'}` instead of propagating it, so a readiness timeout or, as written, the TypeError of the results save becomes an error record for that preset; it is not modelled.
- The exception handler of `_generate_comparison` is left out: no typed input makes the modelled body raise.
- Stats.Percentile: the index is computed exactly as floor(p·n/100) instead of in floating point, and floats are exact reals throughout.
- Report.Title: only ASCII letters are cased; Unicode case mapping is not modelled.
- Report.Rows / Report.SummaryTable: shown values are numbers and winners are strings; a report file holding `null` or a string under a shown key, or a `null` or numeric winner, makes `:.2f` or `.title()` raise in the source, which is not modelled (the engine never writes such values).
- Report.SummaryTable: a category value that is not a dict (for instance a string, where `in` would test substrings) is treated as offering no entries.
- Report.SummaryTable: a document is a list of key/value pairs that may repeat a key, and a lookup reads the first pair with the key; `json.load` keeps the last, so the two agree only on documents with distinct keys, which every document `json.dump` writes has.
- Report.Tally: visits every pair of a document, so on a document that repeats a key it counts entries `json.load` would have dropped; it agrees with the source on documents with distinct keys.
- Orchestrator.RunSingleTest: the consumer count must match the configuration; the unique topic name and the ISO timestamps are not modelled; failing to open or write the results file is not modelled (the serialisation error is, under Findings).
- Orchestrator.AsWrittenTestRaises: every collected consumer stats dict is taken to hold its datetime, that is, its thread has entered `consume_messages`; one that had not, after the 2 s and 5 s sleeps and the load test, would still hold `start_time` None. The same holds without any timing: when the configuration lacks 'duration_seconds' (an unknown test whose overrides omit it), every consumer thread raises KeyError before entering `consume_messages`, its dict keeps `start_time` None, and if the producer also failed to connect the save succeeds where the model says it raises.

## Findings

| source | as written | input that shows it | evidently intended | confidence | as-written member | corrected member |
|---|---|---|---|---|---|---|
| src/test_orchestrator.py:162-164 | `test_config = self.test_configs.get(test_name, {})`, then `if custom_config: test_config.update(custom_config)`, merges the overrides into the stored preset dict itself | a light_load run with `{'duration_seconds': 5}`, then a plain light_load run on the same orchestrator: the second lasts 5 s instead of 60 s | the overrides apply to this run only; the preset stays unchanged | medium (the CLI builds a fresh orchestrator per command, so only longer-lived orchestrators are affected); not executed | Orchestrator.OverridesLeakIntoLaterRuns | Orchestrator.PlainRunUsesPreset |
| src/test_orchestrator.py:265-266 | `json.dump(test_results, f, indent=2)` without an encoder, while the producer stats (src/kafka_producer.py:120, 186) and each consumer stats copy (src/kafka_consumer.py:106, 152) hold `datetime` values | a plain light_load comparison whose kafka producer connects: the dump raises TypeError ("Object of type datetime is not JSON serializable", the error named in test_fixes.py:6), kafka is stopped, and redpanda is never started | both saves, the test's at 265-266 and the comparison's at 325-326, encode timestamps (as the encoder test_fixes.py imports would do), so the test returns its results and the comparison is generated and saved | high; not executed | Orchestrator.LightLoadComparisonSkipsRedpanda | Orchestrator.EncodedTestsCompare |

`Orchestrator.MergeAsWritten` models the merge as written, returning the presets as they stand afterwards. `Orchestrator.EffectiveConfig` is the corrected merge, and `Orchestrator.RunSingleTest` uses it.

`Orchestrator.RunSingleTestAsWritten` models the test save as written; `Orchestrator.AsWrittenTestRaises` says exactly when it raises. `Orchestrator.RunSingleTest` is the corrected test, whose save always succeeds. The comparison takes each test's outcome as a parameter that may raise. `Orchestrator.RunComparison` is the comparison with its own save encoded; `Orchestrator.RunComparisonAsWritten` adds the unencoded comparison save. On as-written test outcomes that save never raises (`Orchestrator.ComparisonSaveFollowsTestSaves`), but once only the test save is encoded it does (`Orchestrator.TestSaveAloneStillRaises`), so the correction has to cover both dumps.

=== FILE: comparison.dfy ===
/** The comparison engine (`TestOrchestrator._generate_comparison`): two
    per-platform result dicts in, per-metric winners out. Throughput and
    bandwidth are higher-is-better, latency, CPU and memory lower-is-better;
    an equal pair goes to kafka. */
module Comparison {
  import opened Wrappers
  import Monitor
  import Producer
  import Consumer

  datatype Platform = Kafka | Redpanda

  /** The platform's name in dispatch, result dicts and 'winner' entries. */
  function Name(p: Platform): string
  {
    match p
    case Kafka => "kafka"
    case Redpanda => "redpanda"
  }

  /** A test configuration dict: setting name to integer value. */
  type Config = map<string, int>

  /** The keys of a producer stats dict the comparison reads. */
  datatype ProducerView = ProducerView(averageThroughput: Option<real>, averageBandwidthMbps: Option<real>)

  /** The keys of one consumer stats dict the comparison reads. */
  datatype ConsumerView = ConsumerView(averageThroughput: Option<real>, latencyAvgMs: Option<real>)

  /** One platform's result dict; each field is None when its key is absent. */
  datatype ResultView = ResultView(
    producerStats: Option<ProducerView>,
    consumerStats: Option<seq<ConsumerView>>,
    systemMetrics: Option<Monitor.SummaryStats>,
    config: Option<Config>)

  /** The result dict of a platform that failed to start: `{'error': ...}`. */
  const StartFailedView: ResultView := ResultView(None, None, None, None)

  /** The `{}` producer stats of a run whose producer never connected. */
  const NoProducerStats: ProducerView := ProducerView(None, None)

  /** What the comparison reads from the dict `run_load_test` returns. */
  function ProducerViewOf(r: Producer.LoadReport): (v: ProducerView)
    ensures v.averageThroughput == Some(r.averageThroughput)
    ensures v.averageBandwidthMbps == Some(r.averageBandwidthMbps)
  {
    ProducerView(Some(r.averageThroughput), Some(r.averageBandwidthMbps))
  }

  /** What the comparison reads from the dict `consume_messages` returns:
      the latency key exists only when a latency was measured. */
  function ConsumerViewOf(r: Consumer.ConsumerReport): (v: ConsumerView)
    ensures v.averageThroughput == Some(r.averageThroughput)
    ensures v.latencyAvgMs.Some? <==> r.latency.Some?
    ensures r.latency.Some? ==> v.latencyAvgMs == Some(r.latency.value.avgMs)
  {
    ConsumerView(Some(r.averageThroughput),
                 if r.latency.Some? then Some(r.latency.value.avgMs) else None)
  }

  /** `system_metrics.get('system', {}).get(key)`: the summary's 'system'
      block exists exactly when samples were taken. */
  function SystemCpuAvg(s: Monitor.SummaryStats): Option<real>
  {
    if s.Summary? then Some(s.system.cpu.avg) else None
  }

  function SystemMemoryAvg(s: Monitor.SummaryStats): Option<real>
  {
    if s.Summary? then Some(s.system.memory.avg) else None
  }

  /** A reading, or +infinity for a missing one (`float('inf')`). */
  datatype Extended = Finite(x: real) | Infinity

  function OrInfinity(o: Option<real>): Extended
  {
    if o.Some? then Finite(o.value) else Infinity
  }

  /** `<` on the extended reals. */
  predicate Below(a: Extended, b: Extended)
  {
    match (a, b)
    case (Finite(x), Finite(y)) => x < y
    case (Finite(_), Infinity) => true
    case (Infinity, _) => false
  }

  /** One metric entry: both reported values and the winner. */
  datatype MetricComparison = MetricComparison(kafkaValue: real, redpandaValue: real, winner: Platform)

  /** A higher-is-better metric; a missing value counts and is reported as 0. */
  function HigherWins(kafka: Option<real>, redpanda: Option<real>): (m: MetricComparison)
    ensures m.kafkaValue == kafka.GetOr(0.0) && m.redpandaValue == redpanda.GetOr(0.0)
    ensures m.winner == Redpanda <==> m.redpandaValue > m.kafkaValue
    ensures m.winner == Kafka <==> m.redpandaValue <= m.kafkaValue
  {
    var k, r := kafka.GetOr(0.0), redpanda.GetOr(0.0);
    MetricComparison(k, r, if r > k then Redpanda else Kafka)
  }

  /** A lower-is-better metric; a missing value counts as +infinity when
      deciding but is reported as 0. */
  function LowerWins(kafka: Option<real>, redpanda: Option<real>): (m: MetricComparison)
    ensures m.kafkaValue == kafka.GetOr(0.0) && m.redpandaValue == redpanda.GetOr(0.0)
    ensures m.winner == Redpanda <==> redpanda.Some? && (kafka.None? || redpanda.value < kafka.value)
  {
    MetricComparison(kafka.GetOr(0.0), redpanda.GetOr(0.0),
                     if Below(OrInfinity(redpanda), OrInfinity(kafka)) then Redpanda else Kafka)
  }

  datatype ProducerComparison = ProducerComparison(throughput: MetricComparison, bandwidth: MetricComparison)
  datatype ConsumerComparison = ConsumerComparison(throughput: MetricComparison, latency: MetricComparison)
  datatype ResourceComparison = ResourceComparison(cpuUsage: MetricComparison, memoryUsage: MetricComparison)

  /** The comparison dict; a section is None when its key is not emitted. */
  datatype ComparisonReport = ComparisonReport(
    producer: Option<ProducerComparison>,
    consumer: Option<ConsumerComparison>,
    resources: Option<ResourceComparison>)

  /** `results.get('consumer_stats')` is truthy: present and non-empty. */
  predicate HasConsumerStats(v: ResultView)
  {
    v.consumerStats.Some? && |v.consumerStats.value| > 0
  }

  /** `_generate_comparison`. */
  function GenerateComparison(kafka: ResultView, redpanda: ResultView): (c: ComparisonReport)
    ensures c.producer.Some? <==> kafka.producerStats.Some? && redpanda.producerStats.Some?
    ensures c.consumer.Some? <==> HasConsumerStats(kafka) && HasConsumerStats(redpanda)
    ensures c.resources.Some? <==> kafka.systemMetrics.Some? && redpanda.systemMetrics.Some?
    ensures c.producer.Some? ==>
      var k, r, p := kafka.producerStats.value, redpanda.producerStats.value, c.producer.value;
      && p.throughput.kafkaValue == k.averageThroughput.GetOr(0.0)
      && p.throughput.redpandaValue == r.averageThroughput.GetOr(0.0)
      && (p.throughput.winner == Redpanda <==> p.throughput.redpandaValue > p.throughput.kafkaValue)
      && p.bandwidth.kafkaValue == k.averageBandwidthMbps.GetOr(0.0)
      && p.bandwidth.redpandaValue == r.averageBandwidthMbps.GetOr(0.0)
      && (p.bandwidth.winner == Redpanda <==> p.bandwidth.redpandaValue > p.bandwidth.kafkaValue)
    ensures c.consumer.Some? ==>
      var k, r, s := kafka.consumerStats.value[0], redpanda.consumerStats.value[0], c.consumer.value;
      && s.throughput.kafkaValue == k.averageThroughput.GetOr(0.0)
      && s.throughput.redpandaValue == r.averageThroughput.GetOr(0.0)
      && (s.throughput.winner == Redpanda <==> s.throughput.redpandaValue > s.throughput.kafkaValue)
      && s.latency.kafkaValue == k.latencyAvgMs.GetOr(0.0)
      && s.latency.redpandaValue == r.latencyAvgMs.GetOr(0.0)
      && (s.latency.winner == Redpanda <==>
            r.latencyAvgMs.Some? && (k.latencyAvgMs.None? || r.latencyAvgMs.value < k.latencyAvgMs.value))
    ensures c.resources.Some? ==>
      var k, r, s := kafka.systemMetrics.value, redpanda.systemMetrics.value, c.resources.value;
      && s.cpuUsage == LowerWins(SystemCpuAvg(k), SystemCpuAvg(r))
      && s.memoryUsage == LowerWins(SystemMemoryAvg(k), SystemMemoryAvg(r))
  {
    var producer :=
      if kafka.producerStats.Some? && redpanda.producerStats.Some? then
        var k, r := kafka.producerStats.value, redpanda.producerStats.value;
        Some(ProducerComparison(
          HigherWins(k.averageThroughput, r.averageThroughput),
          HigherWins(k.averageBandwidthMbps, r.averageBandwidthMbps)))
      else None;
    var consumer :=
      if HasConsumerStats(kafka) && HasConsumerStats(redpanda) then
        var k, r := kafka.consumerStats.value[0], redpanda.consumerStats.value[0];
        Some(ConsumerComparison(
          HigherWins(k.averageThroughput, r.averageThroughput),
          LowerWins(k.latencyAvgMs, r.latencyAvgMs)))
      else None;
    var resources :=
      if kafka.systemMetrics.Some? && redpanda.systemMetrics.Some? then
        var k, r := kafka.systemMetrics.value, redpanda.systemMetrics.value;
        Some(ResourceComparison(
          LowerWins(SystemCpuAvg(k), SystemCpuAvg(r)),
          LowerWins(SystemMemoryAvg(k), SystemMemoryAvg(r))))
      else None;
    ComparisonReport(producer, consumer, resources)
  }

  function ProducerMetrics(p: Option<ProducerComparison>): seq<MetricComparison>
  {
    if p.Some? then [p.value.throughput, p.value.bandwidth] else []
  }

  function ConsumerMetrics(c: Option<ConsumerComparison>): seq<MetricComparison>
  {
    if c.Some? then [c.value.throughput, c.value.latency] else []
  }

  function ResourceMetrics(r: Option<ResourceComparison>): seq<MetricComparison>
  {
    if r.Some? then [r.value.cpuUsage, r.value.memoryUsage] else []
  }

  /** Every metric entry the report holds, in emission order. */
  function Metrics(c: ComparisonReport): seq<MetricComparison>
  {
    ProducerMetrics(c.producer) + ConsumerMetrics(c.consumer) + ResourceMetrics(c.resources)
  }

  /** Number of sections emitted. */
  function SectionCount(c: ComparisonReport): nat
  {
    (if c.producer.Some? then 1 else 0) + (if c.consumer.Some? then 1 else 0) + (if c.resources.Some? then 1 else 0)
  }

  /** Swapping the two platforms' values flips a higher-is-better winner
      unless the values are equal, in which case kafka wins both ways. */
  lemma HigherWinsSwap(a: Option<real>, b: Option<real>)
    ensures a.GetOr(0.0) != b.GetOr(0.0) ==> HigherWins(a, b).winner != HigherWins(b, a).winner
    ensures a.GetOr(0.0) == b.GetOr(0.0) ==> HigherWins(a, b).winner == HigherWins(b, a).winner == Kafka
  {
  }

  /** The same for lower-is-better metrics, with a missing value as +infinity. */
  lemma LowerWinsSwap(a: Option<real>, b: Option<real>)
    ensures OrInfinity(a) != OrInfinity(b) ==> LowerWins(a, b).winner != LowerWins(b, a).winner
    ensures OrInfinity(a) == OrInfinity(b) ==> LowerWins(a, b).winner == LowerWins(b, a).winner == Kafka
  {
  }

  /** Comparing a result with itself gives kafka every metric: the source
      has no "no winner" outcome. */
  lemma IdenticalResultsFavourKafka(v: ResultView)
    ensures forall m :: m in Metrics(GenerateComparison(v, v)) ==> m.winner == Kafka
  {
  }

  /** A platform that failed to start contributes no section at all. */
  lemma StartFailureEmptiesComparison(other: ResultView)
    ensures Metrics(GenerateComparison(StartFailedView, other)) == []
    ensures Metrics(GenerateComparison(other, StartFailedView)) == []
  {
  }

  /** Redpanda wins a latency comparison against a run with no latency
      measured, and loses one when it measured none itself. */
  lemma MissingLatencyLoses(k: ConsumerView, r: ConsumerView)
    ensures r.latencyAvgMs.Some? && k.latencyAvgMs.None? ==> LowerWins(k.latencyAvgMs, r.latencyAvgMs).winner == Redpanda
    ensures r.latencyAvgMs.None? ==> LowerWins(k.latencyAvgMs, r.latencyAvgMs).winner == Kafka
    ensures r.latencyAvgMs.None? ==> LowerWins(k.latencyAvgMs, r.latencyAvgMs).redpandaValue == 0.0
  {
  }
}

=== FILE: consumer.dfy ===
/** The consumer side of a benchmark run (`KafkaPerformanceConsumer`):
    per-message counter updates, the zeroed start of a run, and the final
    throughput and latency statistics. Polling, the wall-clock loop and
    the JSON/ISO-timestamp parsing are outside the model: a delivered
    message arrives already classified, with its latency measured. */
module Consumer {
  import opened Wrappers
  import Stats

  /** What the decoded message value turned out to be. */
  datatype Payload =
    | NotAnObject                 // decodes, but not to a dict
    | NoTimestamp                 // a dict without a 'timestamp' key
    | BadTimestamp                // 'timestamp' present, but not parseable
    | Stamped(latencyMs: real)    // receive time minus the parsed send time

  /** One message handed to `_process_message`. */
  datatype Delivery =
    | Undecodable(reason: string)              // decoding the value raised
    | Decoded(sizeBytes: nat, payload: Payload)

  /** The running `stats` dict of one consumer. */
  datatype ConsumerStats = ConsumerStats(
    messagesConsumed: nat,
    bytesConsumed: nat,
    errors: seq<string>,
    latencies: seq<real>)

  datatype ConsumeError = NotConnected

  /** Only messages that were counted can carry a latency. */
  predicate Consistent(st: ConsumerStats)
  {
    |st.latencies| <= st.messagesConsumed
  }

  function ProcessingError(reason: string): string
  {
    "Error processing message: " + reason
  }

  /** The opening of `consume_messages`: raise when not connected, else start from zero. */
  function StartConsuming(connected: bool): (r: Result<ConsumerStats, ConsumeError>)
    ensures r.Failure? <==> !connected
    ensures r.Success? ==> Consistent(r.value)
    ensures r.Success? ==> r.value.messagesConsumed == 0 && r.value.bytesConsumed == 0
    ensures r.Success? ==> r.value.errors == [] && r.value.latencies == []
  {
    if !connected then Failure(NotConnected) else Success(ConsumerStats(0, 0, [], []))
  }

  /** `_process_message`. */
  function ProcessMessage(st: ConsumerStats, d: Delivery): (r: ConsumerStats)
    ensures d.Undecodable? ==>
      && r.messagesConsumed == st.messagesConsumed
      && r.bytesConsumed == st.bytesConsumed
      && r.latencies == st.latencies
      && r.errors == st.errors + [ProcessingError(d.reason)]
    ensures d.Decoded? ==>
      && r.messagesConsumed == st.messagesConsumed + 1
      && r.bytesConsumed == st.bytesConsumed + d.sizeBytes
      && r.errors == st.errors
      && (d.payload.Stamped? ==> r.latencies == st.latencies + [d.payload.latencyMs])
      && (!d.payload.Stamped? ==> r.latencies == st.latencies)
    ensures Consistent(st) ==> Consistent(r)
  {
    match d
    case Undecodable(reason) =>
      st.(errors := st.errors + [ProcessingError(reason)])
    case Decoded(size, payload) =>
      var latencies := if payload.Stamped? then st.latencies + [payload.latencyMs] else st.latencies;
      ConsumerStats(st.messagesConsumed + 1, st.bytesConsumed + size, st.errors, latencies)
  }

  /** Number of deliveries that decode. */
  function DecodedCount(ds: seq<Delivery>): nat
  {
    if |ds| == 0 then 0
    else DecodedCount(ds[..|ds| - 1]) + (if ds[|ds| - 1].Decoded? then 1 else 0)
  }

  /** Total size of the deliveries that decode. */
  function DecodedBytes(ds: seq<Delivery>): nat
  {
    if |ds| == 0 then 0
    else
      var last := ds[|ds| - 1];
      DecodedBytes(ds[..|ds| - 1]) + (if last.Decoded? then last.sizeBytes else 0)
  }

  /** The latencies carried by decoded, time-stamped deliveries, in order. */
  function StampedLatencies(ds: seq<Delivery>): seq<real>
  {
    if |ds| == 0 then []
    else
      var last := ds[|ds| - 1];
      StampedLatencies(ds[..|ds| - 1])
        + (if last.Decoded? && last.payload.Stamped? then [last.payload.latencyMs] else [])
  }

  /** The error lines of the deliveries that fail to decode, in order. */
  function ProcessingErrors(ds: seq<Delivery>): seq<string>
  {
    if |ds| == 0 then []
    else
      var last := ds[|ds| - 1];
      ProcessingErrors(ds[..|ds| - 1])
        + (if last.Undecodable? then [ProcessingError(last.reason)] else [])
  }

  /** Every delivery is either counted or logged as an error, never both. */
  lemma {:induction false} CountedOrLogged(ds: seq<Delivery>)
    ensures DecodedCount(ds) + |ProcessingErrors(ds)| == |ds|
  {
    if |ds| > 0 {
      CountedOrLogged(ds[..|ds| - 1]);
    }
  }

  /** Processes the deliveries of a run one after the other. */
  method ProcessAll(st: ConsumerStats, ds: seq<Delivery>) returns (r: ConsumerStats)
    ensures r.messagesConsumed == st.messagesConsumed + DecodedCount(ds)
    ensures r.bytesConsumed == st.bytesConsumed + DecodedBytes(ds)
    ensures r.latencies == st.latencies + StampedLatencies(ds)
    ensures r.errors == st.errors + ProcessingErrors(ds)
    ensures Consistent(st) ==> Consistent(r)
  {
    r := st;
    var i := 0;
    while i < |ds|
      invariant 0 <= i <= |ds|
      invariant r.messagesConsumed == st.messagesConsumed + DecodedCount(ds[..i])
      invariant r.bytesConsumed == st.bytesConsumed + DecodedBytes(ds[..i])
      invariant r.latencies == st.latencies + StampedLatencies(ds[..i])
      invariant r.errors == st.errors + ProcessingErrors(ds[..i])
      invariant Consistent(st) ==> Consistent(r)
    {
      assert ds[..i + 1][..i] == ds[..i];
      r := ProcessMessage(r, ds[i]);
      i := i + 1;
    }
    assert ds[..i] == ds;
  }

  /** The index of the first delivery that fails to decode, or the length
      when all of them decode. */
  function FirstUndecodable(ds: seq<Delivery>): (n: nat)
    ensures n <= |ds|
    ensures forall i :: 0 <= i < n ==> ds[i].Decoded?
    ensures n < |ds| ==> ds[n].Undecodable?
  {
    if |ds| == 0 || ds[0].Undecodable? then 0
    else
      var rest := FirstUndecodable(ds[1..]);
      assert forall i :: 1 <= i < rest + 1 ==> ds[i] == ds[1..][i - 1];
      rest + 1
  }

  /** The kafka-python branch of the loop: its deserializer decodes inside
      `poll`, so the first undecodable delivery raises out of the loop, its
      message is logged as is (`str(e)`, without the processing prefix) and
      the run ends; the deliveries after it are never processed. */
  method ProcessAllKafkaPython(st: ConsumerStats, ds: seq<Delivery>) returns (r: ConsumerStats)
    ensures var n := FirstUndecodable(ds);
      && r.messagesConsumed == st.messagesConsumed + DecodedCount(ds[..n])
      && r.bytesConsumed == st.bytesConsumed + DecodedBytes(ds[..n])
      && r.latencies == st.latencies + StampedLatencies(ds[..n])
      && r.errors == st.errors + (if n < |ds| then [ds[n].reason] else [])
    ensures Consistent(st) ==> Consistent(r)
  {
    r := st;
    var i := 0;
    while i < |ds| && ds[i].Decoded?
      invariant 0 <= i <= |ds|
      invariant forall j :: 0 <= j < i ==> ds[j].Decoded?
      invariant r.messagesConsumed == st.messagesConsumed + DecodedCount(ds[..i])
      invariant r.bytesConsumed == st.bytesConsumed + DecodedBytes(ds[..i])
      invariant r.latencies == st.latencies + StampedLatencies(ds[..i])
      invariant r.errors == st.errors
      invariant Consistent(st) ==> Consistent(r)
    {
      assert ds[..i + 1][..i] == ds[..i];
      r := ProcessMessage(r, ds[i]);
      i := i + 1;
    }
    assert i == FirstUndecodable(ds);
    if i < |ds| {
      r := r.(errors := r.errors + [ds[i].reason]);
    }
  }

  /** When every delivery decodes, no error line is logged, so both client
      branches leave the same stats. */
  lemma {:induction false} CleanDeliveriesLogNothing(ds: seq<Delivery>)
    requires forall i :: 0 <= i < |ds| ==> ds[i].Decoded?
    ensures FirstUndecodable(ds) == |ds|
    ensures ProcessingErrors(ds) == []
  {
    if |ds| > 0 {
      CleanDeliveriesLogNothing(ds[..|ds| - 1]);
    }
  }

  /** Latency figures, present only when at least one latency was measured. */
  datatype LatencySummary = LatencySummary(avgMs: real, minMs: real, maxMs: real, p95Ms: real, p99Ms: real)

  /** The dict `consume_messages` returns. */
  datatype ConsumerReport = ConsumerReport(
    stats: ConsumerStats,
    durationSeconds: real,
    averageThroughput: real,
    averageBandwidthMbps: real,
    latency: Option<LatencySummary>)

  /** The latency block of `consume_messages`, for at least one measured latency. */
  function LatencyFigures(ls: seq<real>): (l: LatencySummary)
    requires |ls| > 0
    ensures l.avgMs == Stats.Sum(ls) / (|ls| as real)
    ensures Stats.CountBelow(ls, l.p95Ms, false) <= Stats.PercentileIndex(95, |ls|) < Stats.CountBelow(ls, l.p95Ms, true)
    ensures Stats.CountBelow(ls, l.p99Ms, false) <= Stats.PercentileIndex(99, |ls|) < Stats.CountBelow(ls, l.p99Ms, true)
    ensures l.minMs <= l.avgMs <= l.maxMs
    ensures l.minMs <= l.p95Ms <= l.p99Ms <= l.maxMs
    ensures l.minMs in ls && l.maxMs in ls && l.p95Ms in ls && l.p99Ms in ls
    ensures forall i :: 0 <= i < |ls| ==> l.minMs <= ls[i] <= l.maxMs
  {
    Stats.MeanBetweenMinAndMax(ls);
    Stats.PercentileWithinRange(ls, 95);
    Stats.PercentileWithinRange(ls, 99);
    Stats.PercentileMonotone(ls, 95, 99);
    Stats.PercentileRank(ls, 95);
    Stats.PercentileRank(ls, 99);
    LatencySummary(Stats.Mean(ls), Stats.Min(ls), Stats.Max(ls),
                   Stats.Percentile(ls, 95), Stats.Percentile(ls, 99))
  }

  /** The final-statistics block of `consume_messages`. */
  function FinalStatistics(st: ConsumerStats, duration: real): (r: ConsumerReport)
    ensures r.stats == st && r.durationSeconds == duration
    ensures duration > 0.0 ==> r.averageThroughput * duration == st.messagesConsumed as real
    ensures duration > 0.0 ==> r.averageBandwidthMbps * duration * Stats.MiB == st.bytesConsumed as real
    ensures duration <= 0.0 ==> r.averageThroughput == 0.0 && r.averageBandwidthMbps == 0.0
    ensures r.latency.Some? <==> |st.latencies| > 0
    ensures r.latency.Some? ==> r.latency.value == LatencyFigures(st.latencies)
  {
    var throughput := Stats.PerSecond(st.messagesConsumed as real, duration);
    var mib := Stats.ToMiB(st.bytesConsumed);
    var bandwidth := Stats.PerSecond(mib, duration);
    assert duration > 0.0 ==> bandwidth * duration * Stats.MiB == mib * Stats.MiB;
    var latency := if |st.latencies| == 0 then None else Some(LatencyFigures(st.latencies));
    ConsumerReport(st, duration, throughput, bandwidth, latency)
  }
}

=== FILE: monitor.dfy ===
/** The resource sampler (`PerformanceMonitor`): the start/stop guard, the
    summary over the collected samples, and the arithmetic that turns one
    Docker stats record into container figures. Host sampling through
    psutil, the Docker API call and the sampling thread are outside the
    model; samples and stats records are inputs. */
module Monitor {
  import opened Wrappers
  import Stats

  /** The host-level part of one sample, as far as the summary reads it. */
  datatype SystemSample = SystemSample(cpuPercent: real, memoryPercent: real, diskReadMb: real, diskWriteMb: real)

  /** The dict `_parse_container_stats` returns when it succeeds. */
  datatype ContainerMetrics = ContainerMetrics(
    cpuPercent: real,
    memoryUsageMb: real,
    memoryLimitMb: real,
    memoryPercent: real,
    networkRxMb: real,
    networkTxMb: real,
    diskReadMb: real,
    diskWriteMb: real)

  /** One collected metric. `container` is None both when the key is absent
      and when it holds `{}`: the summary treats the two alike. */
  datatype Sample = Sample(system: SystemSample, container: Option<ContainerMetrics>)

  /** avg/max/min of one series. */
  datatype Figures = Figures(avg: real, max: real, min: real)

  datatype SystemSummary = SystemSummary(cpu: Figures, memory: Figures, diskReadTotalMb: real, diskWriteTotalMb: real)

  datatype ContainerSummary = ContainerSummary(cpu: Figures, memory: Figures)

  /** The dict `get_summary_stats` returns; NoSamples is its `{}`. */
  datatype SummaryStats =
    | NoSamples
    | Summary(durationSeconds: nat, system: SystemSummary, container: Option<ContainerSummary>)

  /** `f` holds the avg/max/min of the non-empty series `values`: the sum
      over the count, and two values that bound all the others. */
  predicate FiguresOf(f: Figures, values: seq<real>)
  {
    && |values| > 0
    && f.avg == Stats.Sum(values) / (|values| as real)
    && f.min in values && f.max in values
    && forall i :: 0 <= i < |values| ==> f.min <= values[i] <= f.max
  }

  /** `g` is the largest difference between two values of the series, i.e.
      its max - min. */
  predicate SpreadOf(g: real, values: seq<real>)
  {
    && (forall i, j :: 0 <= i < |values| && 0 <= j < |values| ==> values[i] - values[j] <= g)
    && (exists i, j :: 0 <= i < |values| && 0 <= j < |values| && values[i] - values[j] == g)
  }

  /** avg/max/min of a non-empty series. */
  function Summarize(values: seq<real>): (f: Figures)
    requires |values| > 0
    ensures f.min <= f.avg <= f.max
    ensures f.avg == Stats.Sum(values) / (|values| as real)
    ensures f.min in values && f.max in values
    ensures forall i :: 0 <= i < |values| ==> f.min <= values[i] <= f.max
    ensures FiguresOf(f, values)
  {
    Stats.MeanBetweenMinAndMax(values);
    Figures(Stats.Mean(values), Stats.Max(values), Stats.Min(values))
  }

  function CpuValues(samples: seq<Sample>): (vs: seq<real>)
    ensures |vs| == |samples|
    ensures forall i :: 0 <= i < |samples| ==> vs[i] == samples[i].system.cpuPercent
  {
    seq(|samples|, i requires 0 <= i < |samples| => samples[i].system.cpuPercent)
  }

  function MemoryValues(samples: seq<Sample>): (vs: seq<real>)
    ensures |vs| == |samples|
    ensures forall i :: 0 <= i < |samples| ==> vs[i] == samples[i].system.memoryPercent
  {
    seq(|samples|, i requires 0 <= i < |samples| => samples[i].system.memoryPercent)
  }

  function DiskReadValues(samples: seq<Sample>): (vs: seq<real>)
    ensures |vs| == |samples|
    ensures forall i :: 0 <= i < |samples| ==> vs[i] == samples[i].system.diskReadMb
  {
    seq(|samples|, i requires 0 <= i < |samples| => samples[i].system.diskReadMb)
  }

  function DiskWriteValues(samples: seq<Sample>): (vs: seq<real>)
    ensures |vs| == |samples|
    ensures forall i :: 0 <= i < |samples| ==> vs[i] == samples[i].system.diskWriteMb
  {
    seq(|samples|, i requires 0 <= i < |samples| => samples[i].system.diskWriteMb)
  }

  /** The indexes of the samples whose container entry is non-empty, ascending. */
  function ContainerIndexes(samples: seq<Sample>): (idx: seq<nat>)
    ensures forall k :: 0 <= k < |idx| ==> idx[k] < |samples| && samples[idx[k]].container.Some?
    ensures forall k, l :: 0 <= k < l < |idx| ==> idx[k] < idx[l]
    ensures forall i :: 0 <= i < |samples| && samples[i].container.Some? ==> i in idx
  {
    if |samples| == 0 then []
    else
      var init := samples[..|samples| - 1];
      assert forall i :: 0 <= i < |init| ==> samples[i] == init[i];
      ContainerIndexes(init) + (if samples[|samples| - 1].container.Some? then [|samples| - 1] else [])
  }

  /** The container figures of the samples whose container entry is
      non-empty: one reading per such sample, in sample order. */
  function ContainerReadings(samples: seq<Sample>): (cs: seq<ContainerMetrics>)
    ensures |cs| == |ContainerIndexes(samples)|
    ensures forall k :: 0 <= k < |cs| ==> cs[k] == samples[ContainerIndexes(samples)[k]].container.value
  {
    if |samples| == 0 then []
    else
      var init := samples[..|samples| - 1];
      var last := samples[|samples| - 1];
      var idx := ContainerIndexes(init);
      assert ContainerIndexes(samples) == idx + (if last.container.Some? then [|samples| - 1] else []);
      assert forall k :: 0 <= k < |idx| ==> samples[idx[k]] == init[idx[k]];
      ContainerReadings(init) + (if last.container.Some? then [last.container.value] else [])
  }

  /** The readings are exactly the non-empty container entries of the samples. */
  lemma ReadingsAreContainerEntries(samples: seq<Sample>)
    ensures forall c :: c in ContainerReadings(samples) <==>
      exists i :: 0 <= i < |samples| && samples[i].container == Some(c)
  {
    var cs, all := ContainerReadings(samples), ContainerIndexes(samples);
    forall c | c in cs
      ensures exists i :: 0 <= i < |samples| && samples[i].container == Some(c)
    {
      var k :| 0 <= k < |cs| && cs[k] == c;
      assert samples[all[k]].container == Some(c);
    }
    forall c | exists i :: 0 <= i < |samples| && samples[i].container == Some(c)
      ensures c in cs
    {
      var i :| 0 <= i < |samples| && samples[i].container == Some(c);
      var k :| 0 <= k < |all| && all[k] == i;
      assert cs[k] == c;
    }
  }

  /** max - min of a non-empty series of cumulative counters. */
  function Growth(values: seq<real>): (g: real)
    requires |values| > 0
    ensures g >= 0.0
    ensures forall i, j :: 0 <= i < |values| && 0 <= j < |values| ==> values[i] - values[j] <= g
    ensures exists i, j :: 0 <= i < |values| && 0 <= j < |values| && values[i] - values[j] == g
    ensures SpreadOf(g, values)
  {
    var hi, lo := Stats.Max(values), Stats.Min(values);
    var i :| 0 <= i < |values| && values[i] == hi;
    var j :| 0 <= j < |values| && values[j] == lo;
    hi - lo
  }

  function ReadingCpu(readings: seq<ContainerMetrics>): (vs: seq<real>)
    ensures |vs| == |readings|
    ensures forall k :: 0 <= k < |readings| ==> vs[k] == readings[k].cpuPercent
  {
    seq(|readings|, k requires 0 <= k < |readings| => readings[k].cpuPercent)
  }

  function ReadingMemory(readings: seq<ContainerMetrics>): (vs: seq<real>)
    ensures |vs| == |readings|
    ensures forall k :: 0 <= k < |readings| ==> vs[k] == readings[k].memoryPercent
  {
    seq(|readings|, k requires 0 <= k < |readings| => readings[k].memoryPercent)
  }

  /** The 'system' block of the summary, over a non-empty sample list. */
  function SummarizeSystem(samples: seq<Sample>): (s: SystemSummary)
    requires |samples| > 0
    ensures FiguresOf(s.cpu, CpuValues(samples)) && FiguresOf(s.memory, MemoryValues(samples))
    ensures SpreadOf(s.diskReadTotalMb, DiskReadValues(samples))
    ensures SpreadOf(s.diskWriteTotalMb, DiskWriteValues(samples))
    ensures s.cpu.min <= s.cpu.avg <= s.cpu.max
    ensures s.memory.min <= s.memory.avg <= s.memory.max
    ensures forall i :: 0 <= i < |samples| ==> s.cpu.min <= samples[i].system.cpuPercent <= s.cpu.max
    ensures forall i :: 0 <= i < |samples| ==> s.memory.min <= samples[i].system.memoryPercent <= s.memory.max
    ensures s.diskReadTotalMb >= 0.0 && s.diskWriteTotalMb >= 0.0
    ensures forall i, j :: 0 <= i < |samples| && 0 <= j < |samples| ==>
      samples[i].system.diskReadMb - samples[j].system.diskReadMb <= s.diskReadTotalMb
    ensures forall i, j :: 0 <= i < |samples| && 0 <= j < |samples| ==>
      samples[i].system.diskWriteMb - samples[j].system.diskWriteMb <= s.diskWriteTotalMb
  {
    SystemSummary(CpuFigures(samples), MemoryFigures(samples), DiskReadGrowth(samples), DiskWriteGrowth(samples))
  }

  function CpuFigures(samples: seq<Sample>): (f: Figures)
    requires |samples| > 0
    ensures FiguresOf(f, CpuValues(samples))
    ensures f.min <= f.avg <= f.max
    ensures forall i :: 0 <= i < |samples| ==> f.min <= samples[i].system.cpuPercent <= f.max
  {
    Summarize(CpuValues(samples))
  }

  function MemoryFigures(samples: seq<Sample>): (f: Figures)
    requires |samples| > 0
    ensures FiguresOf(f, MemoryValues(samples))
    ensures f.min <= f.avg <= f.max
    ensures forall i :: 0 <= i < |samples| ==> f.min <= samples[i].system.memoryPercent <= f.max
  {
    Summarize(MemoryValues(samples))
  }

  function DiskReadGrowth(samples: seq<Sample>): (g: real)
    requires |samples| > 0
    ensures SpreadOf(g, DiskReadValues(samples))
    ensures g >= 0.0
    ensures forall i, j :: 0 <= i < |samples| && 0 <= j < |samples| ==>
      samples[i].system.diskReadMb - samples[j].system.diskReadMb <= g
  {
    var series := DiskReadValues(samples);
    var g := Growth(series);
    assert forall i, j :: 0 <= i < |samples| && 0 <= j < |samples| ==> series[i] - series[j] <= g;
    g
  }

  function DiskWriteGrowth(samples: seq<Sample>): (g: real)
    requires |samples| > 0
    ensures SpreadOf(g, DiskWriteValues(samples))
    ensures g >= 0.0
    ensures forall i, j :: 0 <= i < |samples| && 0 <= j < |samples| ==>
      samples[i].system.diskWriteMb - samples[j].system.diskWriteMb <= g
  {
    var series := DiskWriteValues(samples);
    var g := Growth(series);
    assert forall i, j :: 0 <= i < |samples| && 0 <= j < |samples| ==> series[i] - series[j] <= g;
    g
  }

  /** The 'container' block: present only when the first sample has
      container figures, and then the figures of every reading of the
      samples that have them. */
  function SummarizeContainers(samples: seq<Sample>): (c: Option<ContainerSummary>)
    requires |samples| > 0
    ensures c.Some? <==> samples[0].container.Some?
    ensures c.Some? ==> FiguresOf(c.value.cpu, ReadingCpu(ContainerReadings(samples)))
    ensures c.Some? ==> FiguresOf(c.value.memory, ReadingMemory(ContainerReadings(samples)))
    ensures c.Some? ==> c.value.cpu.min <= c.value.cpu.avg <= c.value.cpu.max
    ensures c.Some? ==> c.value.memory.min <= c.value.memory.avg <= c.value.memory.max
    ensures c.Some? ==> forall i :: 0 <= i < |samples| && samples[i].container.Some? ==>
      c.value.cpu.min <= samples[i].container.value.cpuPercent <= c.value.cpu.max
    ensures c.Some? ==> forall i :: 0 <= i < |samples| && samples[i].container.Some? ==>
      c.value.memory.min <= samples[i].container.value.memoryPercent <= c.value.memory.max
  {
    if samples[0].container.None? then None
    else Some(ContainerSummary(ContainerCpuFigures(samples), ContainerMemoryFigures(samples)))
  }

  function ContainerCpuFigures(samples: seq<Sample>): (f: Figures)
    requires exists i :: 0 <= i < |samples| && samples[i].container.Some?
    ensures FiguresOf(f, ReadingCpu(ContainerReadings(samples)))
    ensures f.min <= f.avg <= f.max
    ensures forall i :: 0 <= i < |samples| && samples[i].container.Some? ==>
      f.min <= samples[i].container.value.cpuPercent <= f.max
  {
    var readings := ContainerReadings(samples);
    ReadingsAreContainerEntries(samples);
    var cpu := ReadingCpu(readings);
    assert |readings| > 0 by {
      var i0 :| 0 <= i0 < |samples| && samples[i0].container.Some?;
      assert samples[i0].container.value in readings;
    }
    var f := Summarize(cpu);
    assert forall i :: 0 <= i < |samples| && samples[i].container.Some? ==>
      f.min <= samples[i].container.value.cpuPercent <= f.max by {
      forall i | 0 <= i < |samples| && samples[i].container.Some?
        ensures f.min <= samples[i].container.value.cpuPercent <= f.max
      {
        var c := samples[i].container.value;
        assert c in readings;
        var k :| 0 <= k < |readings| && readings[k] == c;
        assert cpu[k] == c.cpuPercent;
      }
    }
    f
  }

  function ContainerMemoryFigures(samples: seq<Sample>): (f: Figures)
    requires exists i :: 0 <= i < |samples| && samples[i].container.Some?
    ensures FiguresOf(f, ReadingMemory(ContainerReadings(samples)))
    ensures f.min <= f.avg <= f.max
    ensures forall i :: 0 <= i < |samples| && samples[i].container.Some? ==>
      f.min <= samples[i].container.value.memoryPercent <= f.max
  {
    var readings := ContainerReadings(samples);
    ReadingsAreContainerEntries(samples);
    var memory := ReadingMemory(readings);
    assert |readings| > 0 by {
      var i0 :| 0 <= i0 < |samples| && samples[i0].container.Some?;
      assert samples[i0].container.value in readings;
    }
    var f := Summarize(memory);
    assert forall i :: 0 <= i < |samples| && samples[i].container.Some? ==>
      f.min <= samples[i].container.value.memoryPercent <= f.max by {
      forall i | 0 <= i < |samples| && samples[i].container.Some?
        ensures f.min <= samples[i].container.value.memoryPercent <= f.max
      {
        var c := samples[i].container.value;
        assert c in readings;
        var k :| 0 <= k < |readings| && readings[k] == c;
        assert memory[k] == c.memoryPercent;
      }
    }
    f
  }

  /** `get_summary_stats`. */
  function GetSummaryStats(samples: seq<Sample>): (r: SummaryStats)
    ensures r.NoSamples? <==> |samples| == 0
    ensures r.Summary? ==> r.durationSeconds == |samples|
    ensures r.Summary? ==> r.system == SummarizeSystem(samples) && r.container == SummarizeContainers(samples)
  {
    if |samples| == 0 then NoSamples
    else Summary(|samples|, SummarizeSystem(samples), SummarizeContainers(samples))
  }

  /** Samples with an empty container entry do not move the container summary. */
  lemma EmptyContainerSampleIgnored(samples: seq<Sample>, system: SystemSample)
    requires |samples| > 0
    ensures var extended := GetSummaryStats(samples + [Sample(system, None)]);
      extended.Summary? && extended.container == GetSummaryStats(samples).container
  {
    var extended := samples + [Sample(system, None)];
    assert extended[..|extended| - 1] == samples;
    assert extended[0] == samples[0];
    assert ContainerReadings(extended) == ContainerReadings(samples);
    ReadingsAreContainerEntries(samples);
    if samples[0].container.Some? {
      assert ContainerCpuFigures(extended) == ContainerCpuFigures(samples);
      assert ContainerMemoryFigures(extended) == ContainerMemoryFigures(samples);
    }
  }

  /** The sampler's own state: the `monitoring` flag and the collected `metrics`. */
  datatype MonitorState = MonitorState(monitoring: bool, metrics: seq<Sample>)

  /** `start_monitoring`: a second start while running changes nothing. */
  function StartMonitoring(st: MonitorState): (r: MonitorState)
    ensures r.monitoring
    ensures st.monitoring ==> r == st
    ensures !st.monitoring ==> r.metrics == []
  {
    if st.monitoring then st else MonitorState(true, [])
  }

  /** One pass of the sampling loop: a sample is kept only while monitoring. */
  function Record(st: MonitorState, s: Sample): (r: MonitorState)
    ensures r.monitoring == st.monitoring
    ensures st.monitoring ==> r.metrics == st.metrics + [s]
    ensures !st.monitoring ==> r == st
  {
    if st.monitoring then st.(metrics := st.metrics + [s]) else st
  }

  /** `stop_monitoring`: clears the flag and hands back what was collected. */
  function StopMonitoring(st: MonitorState): (r: (MonitorState, seq<Sample>))
    ensures !r.0.monitoring
    ensures r.1 == st.metrics && r.0.metrics == st.metrics
  {
    (st.(monitoring := false), st.metrics)
  }

  function RecordAll(st: MonitorState, samples: seq<Sample>): MonitorState
  {
    if |samples| == 0 then st
    else Record(RecordAll(st, samples[..|samples| - 1]), samples[|samples| - 1])
  }

  /** A monitoring window started from idle returns exactly the samples taken in it. */
  lemma {:induction false} WindowCollectsItsSamples(st: MonitorState, samples: seq<Sample>)
    requires !st.monitoring
    ensures StopMonitoring(RecordAll(StartMonitoring(st), samples)).1 == samples
  {
    RecordAllAppends(StartMonitoring(st), samples);
  }

  lemma {:induction false} RecordAllAppends(st: MonitorState, samples: seq<Sample>)
    requires st.monitoring
    ensures RecordAll(st, samples).monitoring
    ensures RecordAll(st, samples).metrics == st.metrics + samples
  {
    if |samples| > 0 {
      var init := samples[..|samples| - 1];
      RecordAllAppends(st, init);
      assert init + [samples[|samples| - 1]] == samples;
    }
  }

  // ---------------------------------------------------------------------
  // `_parse_container_stats`: a Docker stats record, every key optional.

  datatype CpuUsage = CpuUsage(totalUsage: Option<int>, percpuUsage: Option<seq<int>>)
  datatype CpuStats = CpuStats(cpuUsage: Option<CpuUsage>, systemCpuUsage: Option<int>)
  datatype MemoryStats = MemoryStats(usage: Option<int>, limit: Option<int>)
  datatype NetworkCounters = NetworkCounters(rxBytes: Option<int>, txBytes: Option<int>)
  datatype BlkioEntry = BlkioEntry(op: Option<string>, value: Option<int>)
  /** A JSON value that may also be `null`: Docker on cgroup v2 reports
      null for the block-I/O list, and a record may carry null blocks. */
  datatype Nullable<T> = Null | NonNull(value: T)
  datatype BlkioStats = BlkioStats(ioServiceBytesRecursive: Option<Nullable<seq<BlkioEntry>>>)

  datatype DockerStats = DockerStats(
    cpuStats: Option<CpuStats>,
    precpuStats: Option<CpuStats>,
    memoryStats: Option<MemoryStats>,
    networks: Option<Nullable<seq<NetworkCounters>>>,   // the values of the 'networks' dict
    blkioStats: Option<Nullable<BlkioStats>>)

  /** `stats[..]['cpu_usage']['total_usage']` */
  function TotalUsage(c: Option<CpuStats>): Option<int>
  {
    if c.Some? && c.value.cpuUsage.Some? then c.value.cpuUsage.value.totalUsage else None
  }

  function SystemUsage(c: Option<CpuStats>): Option<int>
  {
    if c.Some? then c.value.systemCpuUsage else None
  }

  /** `stats['cpu_stats']['cpu_usage']['percpu_usage']` */
  function PerCpu(c: Option<CpuStats>): Option<seq<int>>
  {
    if c.Some? && c.value.cpuUsage.Some? then c.value.cpuUsage.value.percpuUsage else None
  }

  function MemoryUsage(s: DockerStats): Option<int>
  {
    if s.memoryStats.Some? then s.memoryStats.value.usage else None
  }

  function MemoryLimit(s: DockerStats): Option<int>
  {
    if s.memoryStats.Some? then s.memoryStats.value.limit else None
  }

  /** `sum(net['rx_bytes'] for net in networks)`; a missing key raises. */
  function RxTotal(nets: seq<NetworkCounters>): Option<int>
  {
    if |nets| == 0 then Some(0)
    else
      var last := nets[|nets| - 1];
      var init := RxTotal(nets[..|nets| - 1]);
      if init.None? || last.rxBytes.None? then None else Some(init.value + last.rxBytes.value)
  }

  function TxTotal(nets: seq<NetworkCounters>): Option<int>
  {
    if |nets| == 0 then Some(0)
    else
      var last := nets[|nets| - 1];
      var init := TxTotal(nets[..|nets| - 1]);
      if init.None? || last.txBytes.None? then None else Some(init.value + last.txBytes.value)
  }

  /** `sum(item['value'] for item in entries if item['op'] == op)`: every
      entry needs an 'op'; only the matching ones need a 'value'. */
  function OpTotal(entries: seq<BlkioEntry>, op: string): Option<int>
  {
    if |entries| == 0 then Some(0)
    else
      var last := entries[|entries| - 1];
      var init := OpTotal(entries[..|entries| - 1], op);
      if init.None? || last.op.None? then None
      else if last.op.value != op then init
      else if last.value.None? then None
      else Some(init.value + last.value.value)
  }

  /** `stats.get('blkio_stats', {}).get('io_service_bytes_recursive', [])`;
      None when the block is `null` (`.get` on None raises) or the list is
      `null` (the sums cannot iterate it). */
  function BlkioEntries(s: DockerStats): Option<seq<BlkioEntry>>
  {
    if s.blkioStats.None? then Some([])
    else match s.blkioStats.value
      case Null => None
      case NonNull(b) =>
        if b.ioServiceBytesRecursive.None? then Some([])
        else match b.ioServiceBytesRecursive.value
          case Null => None
          case NonNull(items) => Some(items)
  }

  /** `stats.get('networks', {}).values()`; None when the dict is `null`,
      whose `.values()` raises. */
  function Networks(s: DockerStats): Option<seq<NetworkCounters>>
  {
    if s.networks.None? then Some([])
    else match s.networks.value
      case Null => None
      case NonNull(nets) => Some(nets)
  }

  /** Everything `_parse_container_stats` reads is present and both divisors are non-zero. */
  predicate Parseable(s: DockerStats)
  {
    && TotalUsage(s.cpuStats).Some? && TotalUsage(s.precpuStats).Some?
    && SystemUsage(s.cpuStats).Some? && SystemUsage(s.precpuStats).Some?
    && SystemUsage(s.cpuStats).value != SystemUsage(s.precpuStats).value
    && PerCpu(s.cpuStats).Some?
    && MemoryUsage(s).Some? && MemoryLimit(s).Some? && MemoryLimit(s).value != 0
    && Networks(s).Some? && RxTotal(Networks(s).value).Some? && TxTotal(Networks(s).value).Some?
    && BlkioEntries(s).Some?
    && OpTotal(BlkioEntries(s).value, "Read").Some? && OpTotal(BlkioEntries(s).value, "Write").Some?
  }

  /** `_parse_container_stats`: container figures, or `{}` (None) on any missing key or zero divisor. */
  function ParseContainerStats(s: DockerStats): (r: Option<ContainerMetrics>)
    ensures r.Some? <==> Parseable(s)
    ensures r.Some? ==>
      var m := r.value;
      var cpuDelta := TotalUsage(s.cpuStats).value - TotalUsage(s.precpuStats).value;
      var systemDelta := SystemUsage(s.cpuStats).value - SystemUsage(s.precpuStats).value;
      && m.cpuPercent * (systemDelta as real) == (cpuDelta as real) * (|PerCpu(s.cpuStats).value| as real) * 100.0
      && m.memoryPercent * (MemoryLimit(s).value as real) == (MemoryUsage(s).value as real) * 100.0
      && m.memoryUsageMb * Stats.MiB == MemoryUsage(s).value as real
      && m.memoryLimitMb * Stats.MiB == MemoryLimit(s).value as real
      && m.networkRxMb * Stats.MiB == RxTotal(Networks(s).value).value as real
      && m.networkTxMb * Stats.MiB == TxTotal(Networks(s).value).value as real
      && m.diskReadMb * Stats.MiB == OpTotal(BlkioEntries(s).value, "Read").value as real
      && m.diskWriteMb * Stats.MiB == OpTotal(BlkioEntries(s).value, "Write").value as real
  {
    if !Parseable(s) then None
    else
      var cpuDelta := (TotalUsage(s.cpuStats).value - TotalUsage(s.precpuStats).value) as real;
      var systemDelta := (SystemUsage(s.cpuStats).value - SystemUsage(s.precpuStats).value) as real;
      var cpus := |PerCpu(s.cpuStats).value| as real;
      var usage, limit := MemoryUsage(s).value as real, MemoryLimit(s).value as real;
      var cpuPercent := (cpuDelta / systemDelta) * cpus * 100.0;
      assert cpuPercent * systemDelta == cpuDelta * cpus * 100.0;
      var memoryPercent := (usage / limit) * 100.0;
      assert memoryPercent * limit == usage * 100.0;
      var entries := BlkioEntries(s).value;
      Some(ContainerMetrics(
        cpuPercent,
        Stats.ToMiB(MemoryUsage(s).value),
        Stats.ToMiB(MemoryLimit(s).value),
        memoryPercent,
        Stats.ToMiB(RxTotal(Networks(s).value).value),
        Stats.ToMiB(TxTotal(Networks(s).value).value),
        Stats.ToMiB(OpTotal(entries, "Read").value),
        Stats.ToMiB(OpTotal(entries, "Write").value)))
  }

  /** Where a sample's container figures come from: no container was found,
      reading its stats raised, or a stats record was read. */
  datatype ContainerSource = NoContainer | StatsFailed | StatsRead(stats: DockerStats)

  /** The container part of `_collect_metrics`: a failed read and a failed
      parse both leave `{}`, which the summary treats as no entry. */
  function CollectSample(system: SystemSample, source: ContainerSource): (r: Sample)
    ensures r.system == system
    ensures r.container.Some? <==> source.StatsRead? && Parseable(source.stats)
    ensures r.container.Some? ==> r.container == ParseContainerStats(source.stats)
  {
    Sample(system, if source.StatsRead? then ParseContainerStats(source.stats) else None)
  }

  /** One more interface adds its received and sent bytes to the network figures. */
  lemma AddedInterfaceCounts(s: DockerStats, net: NetworkCounters)
    requires Parseable(s) && net.rxBytes.Some? && net.txBytes.Some?
    ensures var s' := s.(networks := Some(NonNull(Networks(s).value + [net])));
      var before, after := ParseContainerStats(s), ParseContainerStats(s');
      && after.Some?
      && after.value.networkRxMb * Stats.MiB == before.value.networkRxMb * Stats.MiB + net.rxBytes.value as real
      && after.value.networkTxMb * Stats.MiB == before.value.networkTxMb * Stats.MiB + net.txBytes.value as real
  {
    var nets := Networks(s).value + [net];
    assert nets[..|nets| - 1] == Networks(s).value;
  }

  /** A block-I/O entry whose op is neither 'Read' nor 'Write' changes nothing, whatever its value. */
  lemma OtherOpIgnored(s: DockerStats, items: seq<BlkioEntry>, op: string, value: Option<int>)
    requires s.blkioStats == Some(NonNull(BlkioStats(Some(NonNull(items)))))
    requires op != "Read" && op != "Write"
    ensures ParseContainerStats(s.(blkioStats := Some(NonNull(BlkioStats(Some(NonNull(items + [BlkioEntry(Some(op), value)])))))))
      == ParseContainerStats(s)
  {
    var extended := items + [BlkioEntry(Some(op), value)];
    var s' := s.(blkioStats := Some(NonNull(BlkioStats(Some(NonNull(extended))))));
    assert extended[..|extended| - 1] == items;
    assert BlkioEntries(s') == Some(extended);
    assert OpTotal(extended, "Read") == OpTotal(items, "Read");
    assert OpTotal(extended, "Write") == OpTotal(items, "Write");
    assert Networks(s') == Networks(s);
    assert BlkioEntries(s) == Some(items);
    assert Parseable(s') == Parseable(s);
    if Parseable(s) {
      assert ParseContainerStats(s').value == ParseContainerStats(s).value;
    }
  }

  /** An entry without an 'op' makes the whole parse fail. */
  lemma MissingOpFails(s: DockerStats, items: seq<BlkioEntry>, value: Option<int>)
    requires s.blkioStats == Some(NonNull(BlkioStats(Some(NonNull(items)))))
    ensures ParseContainerStats(s.(blkioStats := Some(NonNull(BlkioStats(Some(NonNull(items + [BlkioEntry(None, value)]))))))).None?
  {
    var extended := items + [BlkioEntry(None, value)];
    assert extended[..|extended| - 1] == items;
  }

  /** A `null` 'networks' dict or 'blkio_stats' block raises inside the
      `try`, so the parse returns `{}` whatever else the record holds. */
  lemma NullBlockFails(s: DockerStats)
    requires s.networks == Some(Null) || s.blkioStats == Some(Null)
    ensures ParseContainerStats(s).None?
  {
  }
}

=== FILE: orchestrator.dfy ===
/** The decisions of `TestOrchestrator`: which broker a platform name means,
    which configuration a test runs with, how long startup is awaited, how
    one test's result dict is assembled, and in which order a comparison
    starts, tests and stops the two platforms. Docker, sockets, threads,
    sleeps and files are outside the model: their outcomes arrive as
    parameters. */
module Orchestrator {
  import opened Wrappers
  import opened Comparison
  import Monitor
  import Producer
  import Consumer

  /** Connection settings of one platform. */
  datatype PlatformSettings = PlatformSettings(bootstrapServers: string, containerName: string, composeFile: string)

  function Settings(p: Platform): PlatformSettings
  {
    match p
    case Kafka => PlatformSettings("localhost:9092", "kafka-broker", "docker-compose.kafka.yml")
    case Redpanda => PlatformSettings("localhost:19092", "redpanda-broker", "docker-compose.redpanda.yml")
  }

  datatype OrchestratorError =
    | UnknownPlatform(name: string)                        // the ValueError of the dispatch
    | StartupTimeout(platform: Platform, maxWait: int)     // "failed to start within N seconds"
    | NotSerializable                                      // the TypeError of `json.dump` on a datetime

  /** The `if platform == 'kafka' ... elif 'redpanda' ... else raise` dispatch. */
  function ParsePlatform(name: string): (r: Result<Platform, OrchestratorError>)
    ensures r.Success? <==> name == "kafka" || name == "redpanda"
    ensures r.Success? ==> Name(r.value) == name
    ensures r.Failure? ==> r.error == UnknownPlatform(name)
  {
    if name == "kafka" then Success(Kafka)
    else if name == "redpanda" then Success(Redpanda)
    else Failure(UnknownPlatform(name))
  }

  /** Name and dispatch are inverse. */
  lemma ParseName(p: Platform)
    ensures ParsePlatform(Name(p)) == Success(p)
  {
  }

  /** The number of readiness probes `_wait_for_platform` allows by default. */
  const DefaultMaxWait: int := 60

  /** `_wait_for_platform`: probe `ready(0)`, `ready(1)`, ... at most `maxWait`
      times (a probe that raises counts as not ready). On success the number
      of probes made is returned. */
  method WaitForPlatform(p: Platform, maxWait: int, ready: nat -> bool) returns (r: Result<nat, OrchestratorError>)
    ensures r.Success? <==> exists j :: 0 <= j < maxWait && ready(j)
    ensures r.Success? ==> 0 < r.value <= maxWait && ready(r.value - 1)
    ensures r.Success? ==> forall j :: 0 <= j < r.value - 1 ==> !ready(j)
    ensures r.Failure? ==> r.error == StartupTimeout(p, maxWait)
  {
    var i: nat := 0;
    while i < maxWait
      invariant maxWait >= 0 ==> i <= maxWait
      invariant forall j :: 0 <= j < i ==> !ready(j)
      decreases maxWait - i
    {
      if ready(i) {
        return Success(i + 1);
      }
      i := i + 1;
    }
    return Failure(StartupTimeout(p, maxWait));
  }

  /** `start_platform`: a failing `docker-compose up` yields false; a
      platform that never becomes ready raises the timeout, which is not
      caught here. */
  method StartPlatform(name: string, composeUp: bool, ready: nat -> bool) returns (r: Result<bool, OrchestratorError>)
    ensures ParsePlatform(name).Failure? ==> r == Failure(UnknownPlatform(name))
    ensures ParsePlatform(name).Success? && !composeUp ==> r == Success(false)
    ensures ParsePlatform(name).Success? && composeUp ==>
      (r == Success(true) <==> exists j :: 0 <= j < DefaultMaxWait && ready(j))
    ensures ParsePlatform(name).Success? && composeUp && r.Failure? ==>
      r.error == StartupTimeout(ParsePlatform(name).value, DefaultMaxWait)
    ensures r != Success(false) || !composeUp
  {
    var p :- ParsePlatform(name);
    if !composeUp {
      return Success(false);
    }
    var waited := WaitForPlatform(p, DefaultMaxWait, ready);
    if waited.Failure? {
      return Failure(waited.error);
    }
    return Success(true);
  }

  /** `stop_platform`: true exactly when `docker-compose down` succeeded. */
  function StopPlatform(name: string, composeDown: bool): (r: Result<bool, OrchestratorError>)
    ensures r.Failure? <==> ParsePlatform(name).Failure?
    ensures r.Failure? ==> r.error == UnknownPlatform(name)
    ensures r.Success? ==> r.value == composeDown
  {
    var _ :- ParsePlatform(name);
    Success(composeDown)
  }

  // ----- test configurations -----

  function Preset(durationSeconds: int, messagesPerSecond: int, messageSizeBytes: int,
                  producerThreads: int, consumers: int): Config
  {
    map["duration_seconds" := durationSeconds, "messages_per_second" := messagesPerSecond,
        "message_size_bytes" := messageSizeBytes, "num_producer_threads" := producerThreads,
        "num_consumers" := consumers]
  }

  /** The predefined tests. */
  const Presets: map<string, Config> := map[
    "light_load" := Preset(60, 100, 1024, 1, 1),
    "medium_load" := Preset(120, 1000, 2048, 2, 2),
    "heavy_load" := Preset(180, 5000, 4096, 4, 4)]

  /** The configuration a test runs with: the named preset (empty for an
      unknown name) overridden key by key by the custom settings. */
  function EffectiveConfig(presets: map<string, Config>, testName: string, custom: Config): (r: Config)
    ensures forall k :: k in custom ==> k in r && r[k] == custom[k]
    ensures testName in presets ==>
      forall k :: k in presets[testName] && k !in custom ==> k in r && r[k] == presets[testName][k]
    ensures forall k :: k in r ==> k in custom || (testName in presets && k in presets[testName])
  {
    (if testName in presets then presets[testName] else map[]) + custom
  }

  /** Without overrides a test runs with exactly its preset. */
  lemma PlainRunUsesPreset(presets: map<string, Config>, testName: string)
    requires testName in presets
    ensures EffectiveConfig(presets, testName, map[]) == presets[testName]
  {
  }

  /** A predefined test run without overrides never fails before sending:
      every setting the load test reads is present and it has producer threads. */
  lemma PresetsNeverFailLoadTest(testName: string)
    requires testName in Presets
    ensures LoadTestFailure(EffectiveConfig(Presets, testName, map[])) == None
  {
    PlainRunUsesPreset(Presets, testName);
    var config := Presets[testName];
    assert forall i :: 0 <= i < |LoadTestKeys| ==> LoadTestKeys[i] in config;
  }

  /** The merge as `run_single_test` writes it: `dict.update` on the dict the
      presets map holds, so the merged settings replace the stored preset.
      Returns the effective configuration and the presets afterwards. */
  function MergeAsWritten(presets: map<string, Config>, testName: string, custom: Config): (r: (Config, map<string, Config>))
    ensures r.0 == EffectiveConfig(presets, testName, custom)
    ensures testName in presets ==> r.1 == presets[testName := r.0]
    ensures testName !in presets ==> r.1 == presets
  {
    if testName in presets then
      var merged := presets[testName] + custom;
      (merged, presets[testName := merged])
    else
      (custom, presets)
  }

  /** The leak: after a light_load run with a 5-second override, a plain
      light_load run on the same orchestrator lasts 5 seconds, not 60. */
  lemma OverridesLeakIntoLaterRuns()
    ensures var first := MergeAsWritten(Presets, "light_load", map["duration_seconds" := 5]);
            MergeAsWritten(first.1, "light_load", map[]).0["duration_seconds"] == 5
    ensures EffectiveConfig(Presets, "light_load", map[])["duration_seconds"] == 60
  {
    var first := MergeAsWritten(Presets, "light_load", map["duration_seconds" := 5]);
    assert first.1["light_load"]["duration_seconds"] == 5;
  }

  /** Within one comparison the leak is harmless: the second platform's run,
      with the same overrides, sees the same configuration as the first. */
  lemma SameOverridesSameConfig(presets: map<string, Config>, testName: string, custom: Config)
    ensures var first := MergeAsWritten(presets, testName, custom);
            MergeAsWritten(first.1, testName, custom).0 == first.0
  {
    var first := MergeAsWritten(presets, testName, custom);
    var second := MergeAsWritten(first.1, testName, custom);
    if testName in presets {
      assert second.0 == first.0 + custom;
    }
  }

  /** `range(test_config.get('num_consumers', 1))`: a negative count starts none. */
  function ConsumerCount(config: Config): (n: nat)
    ensures "num_consumers" !in config ==> n == 1
    ensures "num_consumers" in config ==> n as int == (if config["num_consumers"] < 0 then 0 else config["num_consumers"])
  {
    if "num_consumers" !in config then 1
    else if config["num_consumers"] < 0 then 0
    else config["num_consumers"]
  }

  /** The settings `run_load_test` is called with, in argument order. */
  const LoadTestKeys: seq<string> := ["duration_seconds", "messages_per_second", "message_size_bytes", "num_producer_threads"]

  /** The first key of `keys` the configuration lacks (the KeyError raised). */
  function FirstMissing(config: Config, keys: seq<string>): (r: Option<string>)
    ensures r.None? <==> forall i :: 0 <= i < |keys| ==> keys[i] in config
    ensures r.Some? ==> exists i :: 0 <= i < |keys| && keys[i] == r.value && r.value !in config
                                     && forall j :: 0 <= j < i ==> keys[j] in config
  {
    if |keys| == 0 then None
    else if keys[0] !in config then Some(keys[0])
    else
      var rest := FirstMissing(config, keys[1..]);
      if rest.Some? then
        var i :| 0 <= i < |keys[1..]| && keys[1..][i] == rest.value && rest.value !in config
                 && forall j :: 0 <= j < i ==> keys[1..][j] in config;
        assert keys[i + 1] == rest.value;
        rest
      else
        assert forall i :: 1 <= i < |keys| ==> keys[i] == keys[1..][i - 1];
        rest
  }

  /** The entries `run_single_test` appends to its 'errors' list. */
  datatype RunError =
    | ConsumerNotConnected(index: nat)   // "Failed to connect consumer i"
    | ProducerNotConnected               // "Failed to connect producer"
    | MissingSetting(key: string)        // the KeyError of `test_config[key]`
    | DivisionByZero                     // `messages_per_second // 0`

  /** The exception a connected producer's load test raises before any
      message is sent, if any. */
  function LoadTestFailure(config: Config): (e: Option<RunError>)
    ensures e.None? <==>
      (forall i :: 0 <= i < |LoadTestKeys| ==> LoadTestKeys[i] in config)
        && "num_producer_threads" in config && config["num_producer_threads"] != 0
    ensures e.Some? && e.value.MissingSetting? ==> e.value.key in LoadTestKeys && e.value.key !in config
    ensures FirstMissing(config, LoadTestKeys).Some? ==>
      e == Some(MissingSetting(FirstMissing(config, LoadTestKeys).value))
    ensures FirstMissing(config, LoadTestKeys).None? && "num_producer_threads" in config
            && config["num_producer_threads"] == 0 ==>
      e == Some(DivisionByZero)
  {
    match FirstMissing(config, LoadTestKeys)
    case Some(k) => Some(MissingSetting(k))
    case None =>
      assert LoadTestKeys[1] in config && LoadTestKeys[3] in config;
      if Producer.PerThreadRate(config["messages_per_second"], config["num_producer_threads"]).Failure?
      then Some(DivisionByZero) else None
  }

  /** What `get_stats` returns after `stop()` and the join: the final dict
      when the consumer thread finished, the running counters otherwise. */
  datatype ConsumerSnapshot = Finished(report: Consumer.ConsumerReport) | Unfinished(stats: Consumer.ConsumerStats)

  datatype ConsumerAttempt = ConsumerConnectFailed | ConsumerConnected(snapshot: ConsumerSnapshot)

  /** A connected producer carries the dict its load test returns when it runs. */
  datatype ProducerAttempt = ProducerConnectFailed | ProducerConnected(report: Producer.LoadReport)

  function SnapshotView(s: ConsumerSnapshot): (v: ConsumerView)
    ensures s.Unfinished? ==> v.averageThroughput.None? && v.latencyAvgMs.None?
    ensures s.Finished? ==> v == ConsumerViewOf(s.report)
  {
    match s
    case Finished(report) => ConsumerViewOf(report)
    case Unfinished(_) => ConsumerView(None, None)
  }

  /** The connect errors of the consumers, in index order. */
  function ConnectErrors(cs: seq<ConsumerAttempt>): seq<RunError>
  {
    if |cs| == 0 then []
    else
      ConnectErrors(cs[..|cs| - 1])
      + (if cs[|cs| - 1].ConsumerConnectFailed? then [ConsumerNotConnected(|cs| - 1)] else [])
  }

  /** The stats of the connected consumers, in index order. */
  function CollectedStats(cs: seq<ConsumerAttempt>): seq<ConsumerView>
  {
    if |cs| == 0 then []
    else
      CollectedStats(cs[..|cs| - 1])
      + (if cs[|cs| - 1].ConsumerConnected? then [SnapshotView(cs[|cs| - 1].snapshot)] else [])
  }

  /** Every consumer either reports stats or an error, never both. */
  lemma {:induction false} ConsumersAccountedFor(cs: seq<ConsumerAttempt>)
    ensures |ConnectErrors(cs)| + |CollectedStats(cs)| == |cs|
  {
    if |cs| > 0 {
      ConsumersAccountedFor(cs[..|cs| - 1]);
    }
  }

  /** The errors name exactly the consumers that failed to connect. */
  lemma {:induction false} ConnectErrorsName(cs: seq<ConsumerAttempt>)
    ensures forall e :: e in ConnectErrors(cs) ==>
      e.ConsumerNotConnected? && e.index < |cs| && cs[e.index].ConsumerConnectFailed?
    ensures forall i :: 0 <= i < |cs| && cs[i].ConsumerConnectFailed? ==> ConsumerNotConnected(i) in ConnectErrors(cs)
  {
    if |cs| > 0 {
      var init := cs[..|cs| - 1];
      ConnectErrorsName(init);
      assert forall i :: 0 <= i < |init| ==> init[i] == cs[i];
    }
  }

  /** The result dict of `run_single_test`. */
  datatype TestResults = TestResults(
    platform: Platform,
    testName: string,
    config: Config,
    producerStats: ProducerView,
    consumerStats: seq<ConsumerView>,
    systemMetrics: Monitor.SummaryStats,
    errors: seq<RunError>)

  /** `run_single_test` with the corrected configuration merge. `consumers`
      holds one attempt per consumer the configuration asks for; `samples`
      are what the monitor recorded during the test. */
  function RunSingleTest(presets: map<string, Config>, name: string, testName: string, custom: Config,
                         consumers: seq<ConsumerAttempt>, producer: ProducerAttempt,
                         samples: seq<Monitor.Sample>): (r: Result<TestResults, OrchestratorError>)
    requires |consumers| == ConsumerCount(EffectiveConfig(presets, testName, custom))
    ensures r.Failure? <==> ParsePlatform(name).Failure?
    ensures r.Failure? ==> r.error == UnknownPlatform(name)
    ensures r.Success? ==>
      && Name(r.value.platform) == name
      && r.value.testName == testName
      && r.value.config == EffectiveConfig(presets, testName, custom)
      && r.value.systemMetrics == Monitor.GetSummaryStats(samples)
    ensures r.Success? ==>
      var failure := LoadTestFailure(r.value.config);
      match producer
      case ProducerConnectFailed =>
        && r.value.producerStats == NoProducerStats
        && r.value.consumerStats == CollectedStats(consumers)
        && r.value.errors == ConnectErrors(consumers) + [ProducerNotConnected]
      case ProducerConnected(report) =>
        if failure.Some? then
          && r.value.producerStats == NoProducerStats
          && r.value.consumerStats == []
          && r.value.errors == ConnectErrors(consumers) + [failure.value]
        else
          && r.value.producerStats == ProducerViewOf(report)
          && r.value.consumerStats == CollectedStats(consumers)
          && r.value.errors == ConnectErrors(consumers)
  {
    var platform :- ParsePlatform(name);
    var config := EffectiveConfig(presets, testName, custom);
    var summary := Monitor.GetSummaryStats(samples);
    var connectErrors := ConnectErrors(consumers);
    var outcome :=
      match producer
      case ProducerConnectFailed =>
        (NoProducerStats, CollectedStats(consumers), connectErrors + [ProducerNotConnected])
      case ProducerConnected(report) =>
        match LoadTestFailure(config)
        case Some(e) => (NoProducerStats, [], connectErrors + [e])
        case None => (ProducerViewOf(report), CollectedStats(consumers), connectErrors);
    Success(TestResults(platform, testName, config, outcome.0, outcome.1, summary, outcome.2))
  }

  /** A run whose producer ran reports its figures; any error-free run
      reports one stats dict per consumer. */
  lemma CleanRunReportsEveryConsumer(presets: map<string, Config>, name: string, testName: string, custom: Config,
                                     consumers: seq<ConsumerAttempt>, producer: ProducerAttempt,
                                     samples: seq<Monitor.Sample>)
    requires |consumers| == ConsumerCount(EffectiveConfig(presets, testName, custom))
    requires RunSingleTest(presets, name, testName, custom, consumers, producer, samples).Success?
    ensures var t := RunSingleTest(presets, name, testName, custom, consumers, producer, samples).value;
            t.errors == [] ==> |t.consumerStats| == ConsumerCount(t.config) && t.producerStats != NoProducerStats
  {
    var t := RunSingleTest(presets, name, testName, custom, consumers, producer, samples).value;
    ConsumersAccountedFor(consumers);
  }

  // ----- saving the results -----

  /** Whether a result dict holds a `datetime`: the dict `run_load_test`
      returns keeps its 'start_time' and 'end_time' as datetimes, and so
      does the stats copy of every consumer whose thread began consuming. */
  predicate HoldsTimestamp(t: TestResults)
  {
    t.producerStats != NoProducerStats || |t.consumerStats| > 0
  }

  /** `json.dump(test_results, f, indent=2)` as written: no encoder handles
      datetimes, so a dict holding one raises TypeError and the test never
      returns its results. */
  function SaveAsWritten(t: TestResults): (r: Result<TestResults, OrchestratorError>)
    ensures r.Success? ==> r.value == t
    ensures r.Failure? ==> r.error == NotSerializable
  {
    if HoldsTimestamp(t) then Failure(NotSerializable) else Success(t)
  }

  /** `run_single_test` as written: the assembled dict, then the save. */
  function RunSingleTestAsWritten(presets: map<string, Config>, name: string, testName: string, custom: Config,
                                  consumers: seq<ConsumerAttempt>, producer: ProducerAttempt,
                                  samples: seq<Monitor.Sample>): (r: Result<TestResults, OrchestratorError>)
    requires |consumers| == ConsumerCount(EffectiveConfig(presets, testName, custom))
    ensures r.Success? ==> r == RunSingleTest(presets, name, testName, custom, consumers, producer, samples)
    ensures r.Success? ==> !HoldsTimestamp(r.value)
    ensures ParsePlatform(name).Failure? ==> r == Failure(UnknownPlatform(name))
  {
    var t :- RunSingleTest(presets, name, testName, custom, consumers, producer, samples);
    SaveAsWritten(t)
  }

  /** Some consumer stats are collected exactly when some consumer connected. */
  lemma {:induction false} CollectedStatsNonEmpty(cs: seq<ConsumerAttempt>)
    ensures |CollectedStats(cs)| > 0 <==> exists i :: 0 <= i < |cs| && cs[i].ConsumerConnected?
  {
    if |cs| > 0 {
      var init := cs[..|cs| - 1];
      CollectedStatsNonEmpty(init);
      if exists i :: 0 <= i < |init| && init[i].ConsumerConnected? {
        var i :| 0 <= i < |init| && init[i].ConsumerConnected?;
        assert cs[i] == init[i];
      }
      if exists i :: 0 <= i < |cs| && cs[i].ConsumerConnected? {
        var i :| 0 <= i < |cs| && cs[i].ConsumerConnected?;
        if i < |init| {
          assert init[i] == cs[i];
        }
      }
    }
  }

  /** As written, a known platform's test raises exactly when the dict it
      saves holds a datetime: its producer ran the load test, or the load
      test did not abort and some consumer connected. */
  lemma AsWrittenTestRaises(presets: map<string, Config>, name: string, testName: string, custom: Config,
                            consumers: seq<ConsumerAttempt>, producer: ProducerAttempt,
                            samples: seq<Monitor.Sample>)
    requires |consumers| == ConsumerCount(EffectiveConfig(presets, testName, custom))
    requires ParsePlatform(name).Success?
    ensures var failure := LoadTestFailure(EffectiveConfig(presets, testName, custom));
      var ran := producer.ProducerConnected? && failure.None?;
      var aborted := producer.ProducerConnected? && failure.Some?;
      RunSingleTestAsWritten(presets, name, testName, custom, consumers, producer, samples).Failure? <==>
        ran || (!aborted && exists i :: 0 <= i < |consumers| && consumers[i].ConsumerConnected?)
  {
    CollectedStatsNonEmpty(consumers);
  }

  /** The discrepancy on a concrete run: a plain light_load test on kafka
      whose producer connected raises instead of returning its results. */
  lemma LightLoadTestRaises(report: Producer.LoadReport)
    ensures ConsumerCount(EffectiveConfig(Presets, "light_load", map[])) == 1
    ensures RunSingleTestAsWritten(Presets, "kafka", "light_load", map[], [ConsumerConnectFailed],
                                   ProducerConnected(report), []) == Failure(NotSerializable)
  {
    PlainRunUsesPreset(Presets, "light_load");
    PresetsNeverFailLoadTest("light_load");
  }

  /** And so, as written, a comparison whose kafka test is that run stops
      kafka, raises the TypeError and never starts redpanda. */
  lemma LightLoadComparisonSkipsRedpanda(report: Producer.LoadReport,
                                         redpandaStarted: Result<bool, OrchestratorError>,
                                         redpandaTested: Result<TestResults, OrchestratorError>)
    ensures ConsumerCount(EffectiveConfig(Presets, "light_load", map[])) == 1
    ensures var kafkaTested := RunSingleTestAsWritten(Presets, "kafka", "light_load", map[], [ConsumerConnectFailed],
                                                      ProducerConnected(report), []);
      var run := RunComparisonAsWritten("light_load", Success(true), kafkaTested, redpandaStarted, redpandaTested);
      && run.1 == Failure(NotSerializable)
      && run.0 == [StartStep(Kafka), TestStep(Kafka), StopStep(Kafka)]
  {
    LightLoadTestRaises(report);
  }

  /** With a datetime-aware encoder at both dumps, the test's and the
      comparison's, neither save can fail: each test returns the dict
      `RunSingleTest` assembles and the comparison is RunComparison's, so
      every comparison whose two starts returned reaches redpanda and
      generates its comparison. */
  lemma EncodedTestsCompare(testName: string, custom: Config,
                            kafkaStarted: bool, kafkaConsumers: seq<ConsumerAttempt>, kafkaProducer: ProducerAttempt,
                            kafkaSamples: seq<Monitor.Sample>,
                            redpandaStarted: bool, redpandaConsumers: seq<ConsumerAttempt>, redpandaProducer: ProducerAttempt,
                            redpandaSamples: seq<Monitor.Sample>)
    requires |kafkaConsumers| == ConsumerCount(EffectiveConfig(Presets, testName, custom))
    requires |redpandaConsumers| == ConsumerCount(EffectiveConfig(Presets, testName, custom))
    ensures var kafkaTested := RunSingleTest(Presets, "kafka", testName, custom, kafkaConsumers, kafkaProducer, kafkaSamples);
      var redpandaTested := RunSingleTest(Presets, "redpanda", testName, custom, redpandaConsumers, redpandaProducer, redpandaSamples);
      var run := RunComparison(testName, Success(kafkaStarted), kafkaTested, Success(redpandaStarted), redpandaTested);
      && run.1.Success?
      && StartStep(Redpanda) in run.0
      && (kafkaStarted ==> run.1.value.kafkaResults == ResultsView(kafkaTested.value))
  {
    var kafkaTested := RunSingleTest(Presets, "kafka", testName, custom, kafkaConsumers, kafkaProducer, kafkaSamples);
    var redpandaTested := RunSingleTest(Presets, "redpanda", testName, custom, redpandaConsumers, redpandaProducer, redpandaSamples);
    RunComparisonTests(testName, Success(kafkaStarted), kafkaTested, Success(redpandaStarted), redpandaTested);
  }

  /** The dict the comparison reads from a test's results. */
  function ResultsView(t: TestResults): (v: ResultView)
    ensures v.producerStats == Some(t.producerStats)
    ensures v.consumerStats == Some(t.consumerStats)
    ensures v.systemMetrics == Some(t.systemMetrics) && v.config == Some(t.config)
  {
    ResultView(Some(t.producerStats), Some(t.consumerStats), Some(t.systemMetrics), Some(t.config))
  }

  // ----- comparison sequencing -----

  /** The broker-level actions of `run_comparison_test`, in order. */
  datatype Step = StartStep(platform: Platform) | TestStep(platform: Platform) | StopStep(platform: Platform)

  /** The outcome of a whole comparison. */
  datatype ComparisonRun = ComparisonRun(
    testName: string,
    kafkaResults: ResultView,
    redpandaResults: ResultView,
    comparison: ComparisonReport)

  /** Whether a platform's `try` block raises: its start raised, or its
      start succeeded and its test raised. */
  predicate Raises(started: Result<bool, OrchestratorError>, tested: Result<TestResults, OrchestratorError>)
  {
    started.Failure? || (started == Success(true) && tested.Failure?)
  }

  /** The exception a raising phase re-raises after its stop. */
  function Raised(started: Result<bool, OrchestratorError>, tested: Result<TestResults, OrchestratorError>)
    : OrchestratorError
    requires Raises(started, tested)
  {
    if started.Failure? then started.error else tested.error
  }

  /** One `try: start, test / finally: stop` block; `tested` is what the
      test returns or raises if it is reached. */
  function PlatformPhase(p: Platform, started: Result<bool, OrchestratorError>,
                         tested: Result<TestResults, OrchestratorError>)
    : (r: (seq<Step>, Result<ResultView, OrchestratorError>))
    ensures |r.0| >= 2 && r.0[0] == StartStep(p) && r.0[|r.0| - 1] == StopStep(p)
    ensures forall i :: 0 <= i < |r.0| ==> r.0[i].platform == p
    ensures TestStep(p) in r.0 <==> started == Success(true)
    ensures started.Failure? ==> r.1 == Failure(started.error)
    ensures started == Success(false) ==> r.1 == Success(StartFailedView)
    ensures started == Success(true) && tested.Failure? ==> r.1 == Failure(tested.error)
    ensures started == Success(true) && tested.Success? ==> r.1 == Success(ResultsView(tested.value))
  {
    match started
    case Failure(e) => ([StartStep(p), StopStep(p)], Failure(e))
    case Success(false) => ([StartStep(p), StopStep(p)], Success(StartFailedView))
    case Success(true) =>
      var steps := [StartStep(p), TestStep(p), StopStep(p)];
      match tested
      case Failure(e) => (steps, Failure(e))
      case Success(t) => (steps, Success(ResultsView(t)))
  }

  /** `run_comparison_test`, given what starting each platform returned and
      what its test returns or raises. */
  function RunComparison(testName: string,
                         kafkaStarted: Result<bool, OrchestratorError>, kafkaTested: Result<TestResults, OrchestratorError>,
                         redpandaStarted: Result<bool, OrchestratorError>, redpandaTested: Result<TestResults, OrchestratorError>)
    : (r: (seq<Step>, Result<ComparisonRun, OrchestratorError>))
    ensures |r.0| >= 2 && r.0[0] == StartStep(Kafka)
    ensures Raises(kafkaStarted, kafkaTested) ==> r.1 == Failure(Raised(kafkaStarted, kafkaTested))
    ensures !Raises(kafkaStarted, kafkaTested) && Raises(redpandaStarted, redpandaTested) ==>
      r.1 == Failure(Raised(redpandaStarted, redpandaTested))
    ensures r.1.Success? <==> !Raises(kafkaStarted, kafkaTested) && !Raises(redpandaStarted, redpandaTested)
    ensures r.1.Success? ==>
      && r.1.value.testName == testName
      && r.1.value.comparison == GenerateComparison(r.1.value.kafkaResults, r.1.value.redpandaResults)
      && (kafkaStarted.value ==> r.1.value.kafkaResults == ResultsView(kafkaTested.value))
      && (!kafkaStarted.value ==> r.1.value.kafkaResults == StartFailedView)
      && (redpandaStarted.value ==> r.1.value.redpandaResults == ResultsView(redpandaTested.value))
      && (!redpandaStarted.value ==> r.1.value.redpandaResults == StartFailedView)
  {
    var kafka := PlatformPhase(Kafka, kafkaStarted, kafkaTested);
    if kafka.1.Failure? then
      (kafka.0, Failure(kafka.1.error))
    else
      var redpanda := PlatformPhase(Redpanda, redpandaStarted, redpandaTested);
      var trace := kafka.0 + redpanda.0;
      if redpanda.1.Failure? then
        (trace, Failure(redpanda.1.error))
      else
        var k, rp := kafka.1.value, redpanda.1.value;
        (trace, Success(ComparisonRun(testName, k, rp, GenerateComparison(k, rp))))
  }

  // ----- saving the comparison -----

  /** Whether a view of a test's results holds a `datetime`, as the test
      dict it was read from does; the `{'error': ...}` view never does. */
  predicate ViewHoldsTimestamp(v: ResultView)
  {
    || (v.producerStats.Some? && v.producerStats.value != NoProducerStats)
    || (v.consumerStats.Some? && |v.consumerStats.value| > 0)
  }

  /** Whether the dict a platform's phase put into `comparison_results`
      holds a `datetime`: only a test dict that was returned can. */
  predicate PhaseHoldsTimestamp(started: Result<bool, OrchestratorError>, tested: Result<TestResults, OrchestratorError>)
  {
    started == Success(true) && tested.Success? && HoldsTimestamp(tested.value)
  }

  /** `run_comparison_test` as written, ending in the unencoded
      `json.dump(comparison_results, f, indent=2)`: the steps are those of
      RunComparison, and a generated comparison is lost to a TypeError
      exactly when a returned test dict holds a datetime (the comparison's
      own start and end times are isoformat strings). */
  function RunComparisonAsWritten(testName: string,
                                  kafkaStarted: Result<bool, OrchestratorError>, kafkaTested: Result<TestResults, OrchestratorError>,
                                  redpandaStarted: Result<bool, OrchestratorError>, redpandaTested: Result<TestResults, OrchestratorError>)
    : (r: (seq<Step>, Result<ComparisonRun, OrchestratorError>))
    ensures r.0 == RunComparison(testName, kafkaStarted, kafkaTested, redpandaStarted, redpandaTested).0
    ensures r.1.Success? ==> r.1 == RunComparison(testName, kafkaStarted, kafkaTested, redpandaStarted, redpandaTested).1
    ensures Raises(kafkaStarted, kafkaTested) ==> r.1 == Failure(Raised(kafkaStarted, kafkaTested))
    ensures !Raises(kafkaStarted, kafkaTested) && Raises(redpandaStarted, redpandaTested) ==>
      r.1 == Failure(Raised(redpandaStarted, redpandaTested))
    ensures !Raises(kafkaStarted, kafkaTested) && !Raises(redpandaStarted, redpandaTested) ==>
      (r.1 == Failure(NotSerializable) <==>
         PhaseHoldsTimestamp(kafkaStarted, kafkaTested) || PhaseHoldsTimestamp(redpandaStarted, redpandaTested))
  {
    var run := RunComparison(testName, kafkaStarted, kafkaTested, redpandaStarted, redpandaTested);
    if run.1.Success? && (ViewHoldsTimestamp(run.1.value.kafkaResults) || ViewHoldsTimestamp(run.1.value.redpandaResults))
    then (run.0, Failure(NotSerializable))
    else run
  }

  /** As written, the comparison save cannot raise once it is reached:
      every test dict that was returned already passed the same dump, so
      on the outcomes of RunSingleTestAsWritten the as-written comparison
      is RunComparison. */
  lemma ComparisonSaveFollowsTestSaves(testName: string,
                                       kafkaStarted: Result<bool, OrchestratorError>, kafkaTested: Result<TestResults, OrchestratorError>,
                                       redpandaStarted: Result<bool, OrchestratorError>, redpandaTested: Result<TestResults, OrchestratorError>)
    requires kafkaTested.Success? ==> !HoldsTimestamp(kafkaTested.value)
    requires redpandaTested.Success? ==> !HoldsTimestamp(redpandaTested.value)
    ensures RunComparisonAsWritten(testName, kafkaStarted, kafkaTested, redpandaStarted, redpandaTested)
      == RunComparison(testName, kafkaStarted, kafkaTested, redpandaStarted, redpandaTested)
  {
  }

  /** Encoding the test save alone is not enough: a light_load comparison
      whose kafka producer connected runs both phases and generates its
      comparison, and then loses it to the TypeError of the comparison save. */
  lemma TestSaveAloneStillRaises(report: Producer.LoadReport, redpandaTested: Result<TestResults, OrchestratorError>)
    ensures ConsumerCount(EffectiveConfig(Presets, "light_load", map[])) == 1
    ensures var kafkaTested := RunSingleTest(Presets, "kafka", "light_load", map[], [ConsumerConnectFailed],
                                             ProducerConnected(report), []);
      var run := RunComparison("light_load", Success(true), kafkaTested, Success(false), redpandaTested);
      && run.1.Success?
      && StopStep(Redpanda) == run.0[|run.0| - 1]
      && RunComparisonAsWritten("light_load", Success(true), kafkaTested, Success(false), redpandaTested)
         == (run.0, Failure(NotSerializable))
  {
    LightLoadTestRaises(report);
    var kafkaTested := RunSingleTest(Presets, "kafka", "light_load", map[], [ConsumerConnectFailed],
                                     ProducerConnected(report), []);
    RunComparisonTests("light_load", Success(true), kafkaTested, Success(false), redpandaTested);
  }

  /** The order of a comparison's steps: kafka's phase is complete before any
      redpanda step, every start is followed by its stop, and once kafka's
      phase raised the trace ends with kafka's stop and holds no redpanda step. */
  lemma RunComparisonTrace(testName: string,
                           kafkaStarted: Result<bool, OrchestratorError>, kafkaTested: Result<TestResults, OrchestratorError>,
                           redpandaStarted: Result<bool, OrchestratorError>, redpandaTested: Result<TestResults, OrchestratorError>)
    ensures var t := RunComparison(testName, kafkaStarted, kafkaTested, redpandaStarted, redpandaTested).0;
      && StopStep(Kafka) in t
      && (forall i :: 0 <= i < |t| && t[i].platform == Redpanda ==> exists j :: 0 <= j < i && t[j] == StopStep(Kafka))
      && (forall i :: 0 <= i < |t| && t[i].StartStep? ==> exists j :: i < j < |t| && t[j] == StopStep(t[i].platform))
      && (Raises(kafkaStarted, kafkaTested) ==>
            t[|t| - 1] == StopStep(Kafka) && forall i :: 0 <= i < |t| ==> t[i].platform == Kafka)
  {
    var kafka := PlatformPhase(Kafka, kafkaStarted, kafkaTested);
    assert StopStep(Kafka) == kafka.0[|kafka.0| - 1];
    if kafka.1.Success? {
      var redpanda := PlatformPhase(Redpanda, redpandaStarted, redpandaTested);
      StopsFollowStarts(kafka.0, redpanda.0);
    }
  }

  /** A platform's test runs exactly when its start succeeded; redpanda's
      phase runs, and ends the trace, exactly when kafka's phase did not raise. */
  lemma RunComparisonTests(testName: string,
                           kafkaStarted: Result<bool, OrchestratorError>, kafkaTested: Result<TestResults, OrchestratorError>,
                           redpandaStarted: Result<bool, OrchestratorError>, redpandaTested: Result<TestResults, OrchestratorError>)
    ensures var t := RunComparison(testName, kafkaStarted, kafkaTested, redpandaStarted, redpandaTested).0;
      && (TestStep(Kafka) in t <==> kafkaStarted == Success(true))
      && (StartStep(Redpanda) in t <==> !Raises(kafkaStarted, kafkaTested))
      && (!Raises(kafkaStarted, kafkaTested) ==> t[|t| - 1] == StopStep(Redpanda))
      && (TestStep(Redpanda) in t <==> !Raises(kafkaStarted, kafkaTested) && redpandaStarted == Success(true))
  {
    var kafka := PlatformPhase(Kafka, kafkaStarted, kafkaTested);
    assert StartStep(Redpanda) !in kafka.0 && TestStep(Redpanda) !in kafka.0;
    if kafka.1.Success? {
      var redpanda := PlatformPhase(Redpanda, redpandaStarted, redpandaTested);
      assert TestStep(Kafka) !in redpanda.0;
      assert StartStep(Redpanda) == redpanda.0[0];
    }
  }

  /** The ordering facts of two phases run back to back. */
  lemma StopsFollowStarts(first: seq<Step>, second: seq<Step>)
    requires |first| >= 2 && first[|first| - 1] == StopStep(Kafka)
    requires forall i :: 0 <= i < |first| ==> first[i].platform == Kafka
    requires |second| >= 2 && second[|second| - 1] == StopStep(Redpanda)
    requires forall i :: 0 <= i < |second| ==> second[i].platform == Redpanda
    ensures var t := first + second;
      && (forall i :: 0 <= i < |t| && t[i].platform == Redpanda ==>
            exists j :: 0 <= j < i && t[j] == StopStep(Kafka))
      && (forall i :: 0 <= i < |t| && t[i].StartStep? ==>
            exists j :: i < j < |t| && t[j] == StopStep(t[i].platform))
  {
    var t := first + second;
    forall i | 0 <= i < |t| && t[i].platform == Redpanda
      ensures exists j :: 0 <= j < i && t[j] == StopStep(Kafka)
    {
      assert t[|first| - 1] == StopStep(Kafka);
    }
    forall i | 0 <= i < |t| && t[i].StartStep?
      ensures exists j :: i < j < |t| && t[j] == StopStep(t[i].platform)
    {
      if i < |first| - 1 {
        assert t[|first| - 1] == StopStep(Kafka);
      } else {
        assert t[|t| - 1] == StopStep(Redpanda);
      }
    }
  }

  /** A platform that did not come up leaves the comparison without any section. */
  lemma FailedStartEmptiesComparison(testName: string,
                                     kafkaStarted: Result<bool, OrchestratorError>, kafkaTested: Result<TestResults, OrchestratorError>,
                                     redpandaStarted: Result<bool, OrchestratorError>, redpandaTested: Result<TestResults, OrchestratorError>)
    requires kafkaStarted == Success(false) || redpandaStarted == Success(false)
    requires !Raises(kafkaStarted, kafkaTested) && !Raises(redpandaStarted, redpandaTested)
    ensures Metrics(RunComparison(testName, kafkaStarted, kafkaTested, redpandaStarted, redpandaTested).1.value.comparison) == []
  {
    var run := RunComparison(testName, kafkaStarted, kafkaTested, redpandaStarted, redpandaTested).1.value;
    if kafkaStarted == Success(false) {
      StartFailureEmptiesComparison(run.redpandaResults);
    } else {
      StartFailureEmptiesComparison(run.kafkaResults);
    }
  }

  /** When both platforms ran and both tests returned, producers and
      resources are always compared, and consumers exactly when both runs
      collected consumer stats. */
  lemma BothRanComparesAll(testName: string, kafkaResults: TestResults, redpandaResults: TestResults)
    ensures var c := RunComparison(testName, Success(true), Success(kafkaResults),
                                   Success(true), Success(redpandaResults)).1.value.comparison;
      && c.producer.Some? && c.resources.Some?
      && (c.consumer.Some? <==> |kafkaResults.consumerStats| > 0 && |redpandaResults.consumerStats| > 0)
  {
  }
}

=== FILE: producer.dfy ===
/** The producer side of a benchmark run (`KafkaPerformanceProducer`):
    send counters, batches, the per-thread loop body, the rate, pacing and
    padding arithmetic of `run_load_test`, and its final statistics. The
    broker's answer to each send and the length of each JSON-encoded
    envelope are inputs; threads, sleeps and the wall clock are not
    modelled, so counter updates happen one after the other. */
module Producer {
  import opened Wrappers
  import Stats

  /** The `stats` counters of one producer. */
  datatype Counters = Counters(messagesSent: nat, messagesFailed: nat, bytesSent: nat, errors: seq<string>)

  /** The counters `run_load_test` starts from. */
  const Fresh: Counters := Counters(0, 0, 0, [])

  /** One error line per failed send. */
  predicate Consistent(c: Counters)
  {
    |c.errors| == c.messagesFailed
  }

  /** Sends that reached the broker, successful or not. */
  function Attempts(c: Counters): nat
  {
    c.messagesSent + c.messagesFailed
  }

  /** What waiting on the send future produced. */
  datatype Delivery = Acknowledged | Rejected(reason: string)

  /** One message offered to `send_message`: the broker's answer and the
      UTF-8 length of the enriched envelope {id, timestamp, data}. */
  datatype Attempt = Attempt(outcome: Delivery, envelopeBytes: nat)

  datatype SendResult = SendResult(ok: bool, counters: Counters)

  /** `send_message`. */
  function SendMessage(c: Counters, connected: bool, a: Attempt): (r: SendResult)
    ensures !connected ==> !r.ok && r.counters == c
    ensures r.ok <==> connected && a.outcome.Acknowledged?
    ensures connected ==> Attempts(r.counters) == Attempts(c) + 1
    ensures r.ok ==>
      && r.counters.messagesSent == c.messagesSent + 1
      && r.counters.bytesSent == c.bytesSent + a.envelopeBytes
      && r.counters.messagesFailed == c.messagesFailed
      && r.counters.errors == c.errors
    ensures connected && !r.ok ==>
      && r.counters.messagesFailed == c.messagesFailed + 1
      && r.counters.errors == c.errors + [a.outcome.reason]
      && r.counters.messagesSent == c.messagesSent
      && r.counters.bytesSent == c.bytesSent
    ensures Consistent(c) ==> Consistent(r.counters)
  {
    if !connected then SendResult(false, c)
    else match a.outcome
      case Acknowledged =>
        SendResult(true, c.(messagesSent := c.messagesSent + 1, bytesSent := c.bytesSent + a.envelopeBytes))
      case Rejected(reason) =>
        SendResult(false, c.(messagesFailed := c.messagesFailed + 1, errors := c.errors + [reason]))
  }

  /** Number of acknowledged attempts. */
  function AckCount(attempts: seq<Attempt>): nat
  {
    if |attempts| == 0 then 0
    else AckCount(attempts[..|attempts| - 1]) + (if attempts[|attempts| - 1].outcome.Acknowledged? then 1 else 0)
  }

  /** Envelope bytes of the acknowledged attempts. */
  function AckedBytes(attempts: seq<Attempt>): nat
  {
    if |attempts| == 0 then 0
    else
      var last := attempts[|attempts| - 1];
      AckedBytes(attempts[..|attempts| - 1]) + (if last.outcome.Acknowledged? then last.envelopeBytes else 0)
  }

  /** `keys or [None] * len(messages)`: an absent or empty key list means no keys. */
  function KeyList(keys: Option<seq<string>>, n: nat): seq<Option<string>>
  {
    if keys.None? || |keys.value| == 0 then seq(n, _ => None)
    else seq(|keys.value|, i requires 0 <= i < |keys.value| => Some(keys.value[i]))
  }

  /** `keys[i] if i < len(keys) else None` */
  function KeyAt(keyList: seq<Option<string>>, i: nat): Option<string>
  {
    if i < |keyList| then keyList[i] else None
  }

  /** `send_batch`: one `send_message` per message, counting the successes. */
  method SendBatch(c: Counters, connected: bool, attempts: seq<Attempt>, keys: Option<seq<string>>)
    returns (sentCount: nat, keysUsed: seq<Option<string>>, r: Counters)
    ensures !connected ==> sentCount == 0 && keysUsed == [] && r == c
    ensures connected ==> sentCount == AckCount(attempts) <= |attempts|
    ensures connected ==> r.messagesSent == c.messagesSent + sentCount
    ensures connected ==> r.messagesFailed == c.messagesFailed + (|attempts| - sentCount)
    ensures connected ==> r.bytesSent == c.bytesSent + AckedBytes(attempts)
    ensures connected ==> |keysUsed| == |attempts|
    ensures connected ==> forall i :: 0 <= i < |keysUsed| ==>
      keysUsed[i] == (if keys.Some? && i < |keys.value| then Some(keys.value[i]) else None)
    ensures Consistent(c) ==> Consistent(r)
  {
    if !connected {
      return 0, [], c;
    }
    sentCount, keysUsed, r := 0, [], c;
    var keyList := KeyList(keys, |attempts|);
    var i := 0;
    while i < |attempts|
      invariant 0 <= i <= |attempts|
      invariant sentCount == AckCount(attempts[..i]) <= i
      invariant r.messagesSent == c.messagesSent + sentCount
      invariant r.messagesFailed == c.messagesFailed + (i - sentCount)
      invariant r.bytesSent == c.bytesSent + AckedBytes(attempts[..i])
      invariant |keysUsed| == i
      invariant forall k :: 0 <= k < i ==>
        keysUsed[k] == (if keys.Some? && k < |keys.value| then Some(keys.value[k]) else None)
      invariant Consistent(c) ==> Consistent(r)
    {
      assert attempts[..i + 1][..i] == attempts[..i];
      var key := KeyAt(keyList, i);
      var sent := SendMessage(r, true, attempts[i]);
      r := sent.counters;
      if sent.ok {
        sentCount := sentCount + 1;
      }
      keysUsed := keysUsed + [key];
      i := i + 1;
    }
    assert attempts[..i] == attempts;
  }

  lemma AckCountStep(attempts: seq<Attempt>, k: nat)
    requires k < |attempts|
    ensures AckCount(attempts[..k + 1]) == AckCount(attempts[..k]) + (if attempts[k].outcome.Acknowledged? then 1 else 0)
  {
    assert attempts[..k + 1][..k] == attempts[..k];
  }

  lemma {:induction false} AckCountBound(attempts: seq<Attempt>)
    ensures AckCount(attempts) <= |attempts|
  {
    if |attempts| > 0 {
      AckCountBound(attempts[..|attempts| - 1]);
    }
  }

  /** The body of one `producer_thread` loop over the sends the clock allows.
      Each message carries `sequence = thread_stats['sent']`, the thread's
      success count so far, so a failed send is followed by a repeat. */
  method RunThread(c: Counters, connected: bool, attempts: seq<Attempt>)
    returns (sequences: seq<nat>, threadSent: nat, threadFailed: nat, r: Counters)
    ensures |sequences| == |attempts|
    ensures forall i :: 0 <= i < |sequences| ==> sequences[i] == (if connected then AckCount(attempts[..i]) else 0)
    ensures threadSent + threadFailed == |attempts|
    ensures !connected ==> threadSent == 0 && r == c
    ensures connected ==> threadSent == AckCount(attempts)
    ensures connected ==> Attempts(r) == Attempts(c) + |attempts|
    ensures Consistent(c) ==> Consistent(r)
  {
    sequences, threadSent, threadFailed, r := [], 0, 0, c;
    var i := 0;
    while i < |attempts|
      invariant 0 <= i <= |attempts|
      invariant |sequences| == i
      invariant forall k :: 0 <= k < i ==> sequences[k] == (if connected then AckCount(attempts[..k]) else 0)
      invariant threadSent + threadFailed == i
      invariant threadSent == (if connected then AckCount(attempts[..i]) else 0)
      invariant !connected ==> r == c
      invariant connected ==> Attempts(r) == Attempts(c) + i
      invariant Consistent(c) ==> Consistent(r)
    {
      AckCountStep(attempts, i);
      sequences := sequences + [threadSent];
      var sent := SendMessage(r, connected, attempts[i]);
      r := sent.counters;
      if sent.ok {
        threadSent := threadSent + 1;
      } else {
        threadFailed := threadFailed + 1;
      }
      i := i + 1;
    }
    assert attempts[..i] == attempts;
  }

  /** Sequence numbers that count earlier successes never exceed their
      position, and advance by one exactly after a success. */
  lemma SequenceSteps(connected: bool, attempts: seq<Attempt>, sequences: seq<nat>)
    requires |sequences| == |attempts|
    requires forall i :: 0 <= i < |sequences| ==> sequences[i] == (if connected then AckCount(attempts[..i]) else 0)
    ensures forall i :: 0 <= i < |sequences| ==> sequences[i] <= i
    ensures forall i :: 0 <= i < |sequences| - 1 ==>
      sequences[i + 1] == sequences[i] + (if connected && attempts[i].outcome.Acknowledged? then 1 else 0)
  {
    forall k | 0 <= k < |sequences|
      ensures sequences[k] <= k
    {
      AckCountBound(attempts[..k]);
    }
    forall k | 0 <= k < |sequences| - 1
      ensures sequences[k + 1] == sequences[k] + (if connected && attempts[k].outcome.Acknowledged? then 1 else 0)
    {
      AckCountStep(attempts, k);
    }
  }

  datatype LoadError = ZeroThreads

  /** Python's floor division `a // b`. */
  function FloorDiv(a: int, b: int): (q: int)
    requires b != 0
    ensures b > 0 ==> b * q <= a < b * q + b
    ensures b < 0 ==> b * q >= a > b * q + b
  {
    if b > 0 then a / b else (-a) / (-b)
  }

  /** `messages_per_second // num_threads`; dividing by zero threads raises. */
  function PerThreadRate(messagesPerSecond: int, numThreads: int): (r: Result<int, LoadError>)
    ensures r.Failure? <==> numThreads == 0
    ensures numThreads > 0 ==> r.Success? && r.value * numThreads <= messagesPerSecond < r.value * numThreads + numThreads
    ensures numThreads < 0 ==> r.Success? && r.value * numThreads >= messagesPerSecond > r.value * numThreads + numThreads
  {
    if numThreads == 0 then Failure(ZeroThreads)
    else Success(FloorDiv(messagesPerSecond, numThreads))
  }

  /** With at least one thread and a non-negative target, each thread gets
      a share between 0 and the whole target. */
  lemma PerThreadRateBounds(messagesPerSecond: nat, numThreads: nat)
    requires numThreads > 0
    ensures var r := PerThreadRate(messagesPerSecond, numThreads);
      r.Success? && 0 <= r.value <= messagesPerSecond
  {
    QuotientWithin(messagesPerSecond, numThreads);
  }

  lemma QuotientWithin(m: nat, n: nat)
    requires n > 0
    ensures 0 <= m / n <= m
  {
    var q: nat := m / n;
    assert q * n + m % n == m;
    AtMostMultiple(q, n);
  }

  lemma AtMostMultiple(q: nat, n: nat)
    requires n > 0
    ensures q <= q * n
  {
    assert q * n == q + q * (n - 1);
  }

  /** Seconds between sends of one thread; 0 means unpaced. */
  function PacingInterval(ratePerThread: int): (r: real)
    ensures ratePerThread > 0 ==> r > 0.0 && r * (ratePerThread as real) == 1.0
    ensures ratePerThread <= 0 ==> r == 0.0
  {
    if ratePerThread > 0 then 1.0 / (ratePerThread as real) else 0.0
  }

  /** `'x' * (message_size_bytes - 100)`: 100 bytes are reserved for metadata. */
  function Padding(messageSizeBytes: int): (r: string)
    ensures messageSizeBytes >= 100 ==> |r| + 100 == messageSizeBytes
    ensures messageSizeBytes <= 100 ==> r == []
    ensures forall i :: 0 <= i < |r| ==> r[i] == 'x'
  {
    if messageSizeBytes <= 100 then [] else seq(messageSizeBytes - 100, _ => 'x')
  }

  /** The dict `run_load_test` returns. */
  datatype LoadReport = LoadReport(
    counters: Counters,
    durationSeconds: real,
    averageThroughput: real,
    averageBandwidthMbps: real)

  /** The final-statistics block of `run_load_test`. */
  function FinalStatistics(c: Counters, duration: real): (r: LoadReport)
    ensures r.counters == c && r.durationSeconds == duration
    ensures duration > 0.0 ==> r.averageThroughput * duration == c.messagesSent as real
    ensures duration > 0.0 ==> r.averageBandwidthMbps * duration * Stats.MiB == c.bytesSent as real
    ensures duration <= 0.0 ==> r.averageThroughput == 0.0 && r.averageBandwidthMbps == 0.0
  {
    var throughput := Stats.PerSecond(c.messagesSent as real, duration);
    var mib := Stats.ToMiB(c.bytesSent);
    var bandwidth := Stats.PerSecond(mib, duration);
    assert duration > 0.0 ==> bandwidth * duration * Stats.MiB == mib * Stats.MiB;
    LoadReport(c, duration, throughput, bandwidth)
  }
}

=== FILE: report.dfy ===
/** What `ReportGenerator` computes from a saved comparison, before any
    HTML, chart or console formatting: the executive-summary win tally, the
    rows of the console summary table, and the configuration shown in the
    detailed section. The saved comparison is read as a generic document of
    categories and metric entries, since a report may be generated from any
    JSON file. */
module Report {
  import opened Wrappers
  import opened Comparison
  import Orchestrator

  /** One metric entry of a category: a dict with numeric fields and an
      optional 'winner', or any other JSON value. */
  datatype MetricEntry = MetricDict(fields: map<string, real>, winner: Option<string>) | NotADict

  /** One value of the comparison dict: a dict of metric entries (in key
      order) or any other JSON value, such as the 'error' string. */
  datatype CategoryEntry = CategoryDict(metrics: seq<(string, MetricEntry)>) | NotADictCategory

  /** The 'comparison' dict, in key order. */
  type Document = seq<(string, CategoryEntry)>

  // ----- executive summary -----

  /** The winners named by the dict entries of one category that carry one. */
  function MetricWinners(metrics: seq<(string, MetricEntry)>): seq<string>
  {
    if |metrics| == 0 then []
    else
      MetricWinners(metrics[..|metrics| - 1]) + Named(metrics[|metrics| - 1].1)
  }

  function CategoryWinners(c: CategoryEntry): seq<string>
  {
    if c.CategoryDict? then MetricWinners(c.metrics) else []
  }

  /** Every winner named anywhere in the document, in document order. */
  function Winners(doc: Document): seq<string>
  {
    if |doc| == 0 then []
    else Winners(doc[..|doc| - 1]) + CategoryWinners(doc[|doc| - 1].1)
  }

  function Occurrences(s: seq<string>, w: string): nat
  {
    if |s| == 0 then 0
    else Occurrences(s[..|s| - 1], w) + (if s[|s| - 1] == w then 1 else 0)
  }

  lemma {:induction false} OccurrencesAppend(a: seq<string>, b: seq<string>, w: string)
    ensures Occurrences(a + b, w) == Occurrences(a, w) + Occurrences(b, w)
  {
    if |b| > 0 {
      assert (a + b)[..|a + b| - 1] == a + b[..|b| - 1];
      assert (a + b)[|a + b| - 1] == b[|b| - 1];
      OccurrencesAppend(a, b[..|b| - 1], w);
    } else {
      assert a + b == a;
    }
  }

  /** A name occurs no more often than the sequence is long. */
  lemma {:induction false} OccurrencesBound(s: seq<string>, w: string, v: string)
    requires w != v
    ensures Occurrences(s, w) + Occurrences(s, v) <= |s|
  {
    if |s| > 0 {
      OccurrencesBound(s[..|s| - 1], w, v);
    }
  }

  /** The winner a single metric entry contributes, if any. */
  function Named(e: MetricEntry): seq<string>
  {
    if e.MetricDict? && e.winner.Some? then [e.winner.value] else []
  }

  lemma MetricWinnersStep(metrics: seq<(string, MetricEntry)>, j: nat)
    requires j < |metrics|
    ensures MetricWinners(metrics[..j + 1]) == MetricWinners(metrics[..j]) + Named(metrics[j].1)
  {
    assert metrics[..j + 1][..j] == metrics[..j];
  }

  lemma WinnersStep(doc: Document, i: nat)
    requires i < |doc|
    ensures Winners(doc[..i + 1]) == Winners(doc[..i]) + CategoryWinners(doc[i].1)
  {
    assert doc[..i + 1][..i] == doc[..i];
  }

  /** How often `w` occurs in a sequence of at most one name. */
  lemma OccurrencesOfNamed(e: MetricEntry, w: string)
    ensures Occurrences(Named(e), w) == (if e.MetricDict? && e.winner == Some(w) then 1 else 0)
  {
    if e.MetricDict? && e.winner.Some? {
      assert Named(e)[..0] == [];
    }
  }

  /** The inner counting loop of `_generate_executive_summary`, over one category's metrics. */
  method TallyMetrics(metrics: seq<(string, MetricEntry)>) returns (kafkaWins: nat, redpandaWins: nat)
    ensures kafkaWins == Occurrences(MetricWinners(metrics), "kafka")
    ensures redpandaWins == Occurrences(MetricWinners(metrics), "redpanda")
  {
    kafkaWins, redpandaWins := 0, 0;
    var j := 0;
    while j < |metrics|
      invariant 0 <= j <= |metrics|
      invariant kafkaWins == Occurrences(MetricWinners(metrics[..j]), "kafka")
      invariant redpandaWins == Occurrences(MetricWinners(metrics[..j]), "redpanda")
    {
      var e := metrics[j].1;
      MetricWinnersStep(metrics, j);
      OccurrencesAppend(MetricWinners(metrics[..j]), Named(e), "kafka");
      OccurrencesAppend(MetricWinners(metrics[..j]), Named(e), "redpanda");
      OccurrencesOfNamed(e, "kafka");
      OccurrencesOfNamed(e, "redpanda");
      if e.MetricDict? && e.winner.Some? {
        if e.winner.value == "kafka" {
          kafkaWins := kafkaWins + 1;
        } else if e.winner.value == "redpanda" {
          redpandaWins := redpandaWins + 1;
        }
      }
      j := j + 1;
    }
    assert metrics[..j] == metrics;
  }

  /** The counting loops of `_generate_executive_summary`. */
  method Tally(doc: Document) returns (kafkaWins: nat, redpandaWins: nat)
    ensures kafkaWins == Occurrences(Winners(doc), "kafka")
    ensures redpandaWins == Occurrences(Winners(doc), "redpanda")
  {
    kafkaWins, redpandaWins := 0, 0;
    var i := 0;
    while i < |doc|
      invariant 0 <= i <= |doc|
      invariant kafkaWins == Occurrences(Winners(doc[..i]), "kafka")
      invariant redpandaWins == Occurrences(Winners(doc[..i]), "redpanda")
    {
      WinnersStep(doc, i);
      OccurrencesAppend(Winners(doc[..i]), CategoryWinners(doc[i].1), "kafka");
      OccurrencesAppend(Winners(doc[..i]), CategoryWinners(doc[i].1), "redpanda");
      var category := doc[i].1;
      if category.CategoryDict? {
        var k, r := TallyMetrics(category.metrics);
        kafkaWins, redpandaWins := kafkaWins + k, redpandaWins + r;
      }
      i := i + 1;
    }
    assert doc[..i] == doc;
  }

  /** 'Redpanda' only with strictly more wins; a draw reads 'Kafka'. */
  function OverallWinner(kafkaWins: nat, redpandaWins: nat): (p: Platform)
    ensures p == Redpanda <==> redpandaWins > kafkaWins
  {
    if redpandaWins > kafkaWins then Redpanda else Kafka
  }

  /** The figures of the executive summary. */
  method ExecutiveSummary(doc: Document) returns (kafkaWins: nat, redpandaWins: nat, overall: Platform)
    ensures kafkaWins == Occurrences(Winners(doc), "kafka")
    ensures redpandaWins == Occurrences(Winners(doc), "redpanda")
    ensures kafkaWins + redpandaWins <= |Winners(doc)|
    ensures overall == Redpanda <==> redpandaWins > kafkaWins
  {
    kafkaWins, redpandaWins := Tally(doc);
    OccurrencesBound(Winners(doc), "kafka", "redpanda");
    overall := OverallWinner(kafkaWins, redpandaWins);
  }

  // ----- the comparison as saved -----

  function MetricEntryOf(m: MetricComparison, kafkaKey: string, redpandaKey: string): MetricEntry
  {
    MetricDict(map[kafkaKey := m.kafkaValue, redpandaKey := m.redpandaValue], Some(Name(m.winner)))
  }

  /** One saved category holding two metric entries. */
  function Section(key: string, first: (string, MetricEntry), second: (string, MetricEntry)): Document
  {
    [(key, CategoryDict([first, second]))]
  }

  function EncodeProducer(p: Option<ProducerComparison>): Document
  {
    if p.None? then []
    else Section("producer",
                 ("throughput", MetricEntryOf(p.value.throughput, "kafka_msg_per_sec", "redpanda_msg_per_sec")),
                 ("bandwidth", MetricEntryOf(p.value.bandwidth, "kafka_mbps", "redpanda_mbps")))
  }

  function EncodeConsumer(c: Option<ConsumerComparison>): Document
  {
    if c.None? then []
    else Section("consumer",
                 ("throughput", MetricEntryOf(c.value.throughput, "kafka_msg_per_sec", "redpanda_msg_per_sec")),
                 ("latency", MetricEntryOf(c.value.latency, "kafka_avg_ms", "redpanda_avg_ms")))
  }

  function EncodeResources(r: Option<ResourceComparison>): Document
  {
    if r.None? then []
    else Section("resources",
                 ("cpu_usage", MetricEntryOf(r.value.cpuUsage, "kafka_avg_percent", "redpanda_avg_percent")),
                 ("memory_usage", MetricEntryOf(r.value.memoryUsage, "kafka_avg_percent", "redpanda_avg_percent")))
  }

  /** The comparison dict `_generate_comparison` builds, in its key order. */
  function Encode(c: ComparisonReport): Document
  {
    EncodeProducer(c.producer) + EncodeConsumer(c.consumer) + EncodeResources(c.resources)
  }

  function WinnerNames(ms: seq<MetricComparison>): (ns: seq<string>)
    ensures |ns| == |ms|
    ensures forall i :: 0 <= i < |ms| ==> ns[i] == Name(ms[i].winner)
  {
    if |ms| == 0 then [] else WinnerNames(ms[..|ms| - 1]) + [Name(ms[|ms| - 1].winner)]
  }

  lemma WinnerNamesAppend(a: seq<MetricComparison>, b: seq<MetricComparison>)
    ensures WinnerNames(a + b) == WinnerNames(a) + WinnerNames(b)
  {
  }

  lemma {:induction false} WinnersAppend(a: Document, b: Document)
    ensures Winners(a + b) == Winners(a) + Winners(b)
  {
    if |b| > 0 {
      assert (a + b)[..|a + b| - 1] == a + b[..|b| - 1];
      assert (a + b)[|a + b| - 1] == b[|b| - 1];
      WinnersAppend(a, b[..|b| - 1]);
    } else {
      assert a + b == a;
    }
  }

  lemma SectionWinners(key: string, m1: MetricComparison, k1: string, r1: string,
                       m2: MetricComparison, k2: string, r2: string, n1: string, n2: string)
    ensures Winners(Section(key, (n1, MetricEntryOf(m1, k1, r1)), (n2, MetricEntryOf(m2, k2, r2))))
            == WinnerNames([m1, m2])
  {
    var first, second := (n1, MetricEntryOf(m1, k1, r1)), (n2, MetricEntryOf(m2, k2, r2));
    var d := Section(key, first, second);
    assert d[..0] == [];
    assert [first, second][..1] == [first];
    assert [first][..0] == [];
    assert MetricWinners([first]) == [Name(m1.winner)];
    assert MetricWinners([first, second]) == [Name(m1.winner), Name(m2.winner)];
  }

  /** The saved comparison names, in order, exactly the winners of the engine. */
  lemma EncodedWinners(c: ComparisonReport)
    ensures Winners(Encode(c)) == WinnerNames(Metrics(c))
  {
    var p, q, r := EncodeProducer(c.producer), EncodeConsumer(c.consumer), EncodeResources(c.resources);
    WinnersAppend(p, q);
    WinnersAppend(p + q, r);
    WinnerNamesAppend(ProducerMetrics(c.producer), ConsumerMetrics(c.consumer));
    WinnerNamesAppend(ProducerMetrics(c.producer) + ConsumerMetrics(c.consumer), ResourceMetrics(c.resources));
    if c.producer.Some? {
      var v := c.producer.value;
      SectionWinners("producer", v.throughput, "kafka_msg_per_sec", "redpanda_msg_per_sec",
                     v.bandwidth, "kafka_mbps", "redpanda_mbps", "throughput", "bandwidth");
    }
    if c.consumer.Some? {
      var v := c.consumer.value;
      SectionWinners("consumer", v.throughput, "kafka_msg_per_sec", "redpanda_msg_per_sec",
                     v.latency, "kafka_avg_ms", "redpanda_avg_ms", "throughput", "latency");
    }
    if c.resources.Some? {
      var v := c.resources.value;
      SectionWinners("resources", v.cpuUsage, "kafka_avg_percent", "redpanda_avg_percent",
                     v.memoryUsage, "kafka_avg_percent", "redpanda_avg_percent", "cpu_usage", "memory_usage");
    }
  }

  /** The number of metrics a platform won. */
  function Wins(ms: seq<MetricComparison>, p: Platform): nat
  {
    if |ms| == 0 then 0
    else Wins(ms[..|ms| - 1], p) + (if ms[|ms| - 1].winner == p then 1 else 0)
  }

  lemma {:induction false} WinnerNamesCount(ms: seq<MetricComparison>, p: Platform)
    ensures Occurrences(WinnerNames(ms), Name(p)) == Wins(ms, p)
  {
    if |ms| > 0 {
      WinnerNamesCount(ms[..|ms| - 1], p);
      assert WinnerNames(ms)[..|ms| - 1] == WinnerNames(ms[..|ms| - 1]);
    }
  }

  /** Every metric has exactly one winner. */
  lemma {:induction false} WinsPartition(ms: seq<MetricComparison>)
    ensures Wins(ms, Kafka) + Wins(ms, Redpanda) == |ms|
  {
    if |ms| > 0 {
      WinsPartition(ms[..|ms| - 1]);
    }
  }

  /** For the engine's own output the two tallies add up to two wins per
      section, and each platform is credited with the metrics it won. */
  lemma EngineTally(c: ComparisonReport)
    ensures Occurrences(Winners(Encode(c)), "kafka") == Wins(Metrics(c), Kafka)
    ensures Occurrences(Winners(Encode(c)), "redpanda") == Wins(Metrics(c), Redpanda)
    ensures Occurrences(Winners(Encode(c)), "kafka") + Occurrences(Winners(Encode(c)), "redpanda") == 2 * SectionCount(c)
  {
    EncodedWinners(c);
    WinnerNamesCount(Metrics(c), Kafka);
    WinnerNamesCount(Metrics(c), Redpanda);
    WinsPartition(Metrics(c));
  }

  lemma {:induction false} NoWinsWhenAllKafka(ms: seq<MetricComparison>)
    requires forall m :: m in ms ==> m.winner == Kafka
    ensures Wins(ms, Redpanda) == 0
  {
    if |ms| > 0 {
      assert ms[|ms| - 1] in ms;
      assert forall m :: m in ms[..|ms| - 1] ==> m in ms;
      NoWinsWhenAllKafka(ms[..|ms| - 1]);
    }
  }

  /** Comparing a run with itself: kafka takes every metric and the overall verdict. */
  lemma IdenticalRunsReadKafka(v: ResultView)
    ensures var doc := Encode(GenerateComparison(v, v));
      && Occurrences(Winners(doc), "redpanda") == 0
      && OverallWinner(Occurrences(Winners(doc), "kafka"), Occurrences(Winners(doc), "redpanda")) == Kafka
  {
    var c := GenerateComparison(v, v);
    IdenticalResultsFavourKafka(v);
    EngineTally(c);
    NoWinsWhenAllKafka(Metrics(c));
  }

  // ----- console summary table -----

  /** The rows `print_summary_table` can print, in print order. */
  datatype RowMetric =
    | ProducerThroughput | ProducerBandwidth | ConsumerThroughput
    | ConsumerLatency | CpuUsage | MemoryUsage

  const RowMetrics: seq<RowMetric> :=
    [ProducerThroughput, ProducerBandwidth, ConsumerThroughput, ConsumerLatency, CpuUsage, MemoryUsage]

  function Rank(m: RowMetric): nat
  {
    match m
    case ProducerThroughput => 0
    case ProducerBandwidth => 1
    case ConsumerThroughput => 2
    case ConsumerLatency => 3
    case CpuUsage => 4
    case MemoryUsage => 5
  }

  /** The print order lists each metric once, at its rank. */
  lemma RanksAreIndexes()
    ensures forall i :: 0 <= i < |RowMetrics| ==> Rank(RowMetrics[i]) == i
    ensures forall m: RowMetric :: Rank(m) < |RowMetrics| && RowMetrics[Rank(m)] == m
  {
  }

  /** Where a row's figures live: category, metric, and the two value keys. */
  datatype Location = Location(category: string, metric: string, kafkaKey: string, redpandaKey: string)

  function LocationOf(m: RowMetric): Location
  {
    match m
    case ProducerThroughput => Location("producer", "throughput", "kafka_msg_per_sec", "redpanda_msg_per_sec")
    case ProducerBandwidth => Location("producer", "bandwidth", "kafka_mbps", "redpanda_mbps")
    case ConsumerThroughput => Location("consumer", "throughput", "kafka_msg_per_sec", "redpanda_msg_per_sec")
    case ConsumerLatency => Location("consumer", "latency", "kafka_avg_ms", "redpanda_avg_ms")
    case CpuUsage => Location("resources", "cpu_usage", "kafka_avg_percent", "redpanda_avg_percent")
    case MemoryUsage => Location("resources", "memory_usage", "kafka_avg_percent", "redpanda_avg_percent")
  }

  /** The value under the first occurrence of a key. */
  function Lookup<V(==)>(entries: seq<(string, V)>, key: string): (r: Option<V>)
    ensures r.Some? <==> exists i :: 0 <= i < |entries| && entries[i].0 == key
    ensures r.Some? ==> exists i :: 0 <= i < |entries| && entries[i] == (key, r.value)
  {
    if |entries| == 0 then None
    else if entries[0].0 == key then Some(entries[0].1)
    else
      var r := Lookup(entries[1..], key);
      assert forall i :: 1 <= i < |entries| ==> entries[i] == entries[1..][i - 1];
      if r.Some? then
        var i :| 0 <= i < |entries[1..]| && entries[1..][i] == (key, r.value);
        assert entries[i + 1] == (key, r.value);
        r
      else
        r
  }

  /** The entry a row reads: `comparison.get(category, {})`, then the metric
      key; a category that is not a dict offers none. */
  function Entry(doc: Document, m: RowMetric): Option<MetricEntry>
  {
    var loc := LocationOf(m);
    var category := Lookup(doc, loc.category);
    if category.Some? && category.value.CategoryDict? then Lookup(category.value.metrics, loc.metric)
    else None
  }

  /** ASCII letters are the cased characters `str.title` acts on. */
  predicate IsUpper(c: char) { 'A' <= c <= 'Z' }
  predicate IsLower(c: char) { 'a' <= c <= 'z' }
  predicate IsCased(c: char) { IsUpper(c) || IsLower(c) }

  function Upper(c: char): (u: char)
    ensures IsCased(u) <==> IsCased(c)
    ensures !IsLower(u)
    ensures !IsLower(c) ==> u == c
  {
    if IsLower(c) then (c as int - 32) as char else c
  }

  function Lower(c: char): (l: char)
    ensures IsCased(l) <==> IsCased(c)
    ensures !IsUpper(l)
    ensures !IsUpper(c) ==> l == c
  {
    if IsUpper(c) then (c as int + 32) as char else c
  }

  function TitleFrom(s: string, afterCased: bool): (r: string)
    ensures |r| == |s|
    ensures forall i :: 0 <= i < |s| ==>
      r[i] == (if (if i == 0 then afterCased else IsCased(s[i - 1])) then Lower(s[i]) else Upper(s[i]))
  {
    if |s| == 0 then []
    else
      var rest := TitleFrom(s[1..], IsCased(s[0]));
      assert forall i :: 1 <= i < |s| ==> s[1..][i - 1] == s[i];
      [if afterCased then Lower(s[0]) else Upper(s[0])] + rest
  }

  /** `str.title` on ASCII text: a letter is upper-cased when it starts a
      run of letters and lower-cased otherwise. */
  function Title(s: string): (r: string)
    ensures |r| == |s|
    ensures forall i :: 0 <= i < |s| ==>
      r[i] == (if i > 0 && IsCased(s[i - 1]) then Lower(s[i]) else Upper(s[i]))
  {
    TitleFrom(s, false)
  }

  /** Title-casing twice changes nothing more. */
  lemma TitleIdempotent(s: string)
    ensures Title(Title(s)) == Title(s)
  {
    var t := Title(s);
    forall i | 0 <= i < |s|
      ensures Title(t)[i] == t[i]
    {
      if i > 0 {
        var j := i - 1;
        assert t[j] == (if j > 0 && IsCased(s[j - 1]) then Lower(s[j]) else Upper(s[j]));
        assert IsCased(t[i - 1]) <==> IsCased(s[i - 1]);
      }
    }
  }

  /** A word of lower-case letters title-cases to its first letter upper-cased. */
  lemma TitleOfLowerWord(s: string)
    requires |s| > 0
    requires forall i :: 0 <= i < |s| ==> IsLower(s[i])
    ensures Title(s) == [Upper(s[0])] + s[1..]
  {
    var t := Title(s);
    forall i | 0 < i < |s|
      ensures t[i] == s[i]
    {
      assert IsCased(s[i - 1]);
    }
  }

  /** One table row: the two figures and the title-cased winner. */
  datatype Row = Row(metric: RowMetric, kafkaValue: real, redpandaValue: real, winner: string)

  function RowOf(m: RowMetric, fields: map<string, real>, winner: Option<string>): (row: Row)
    ensures row.metric == m
    ensures row.kafkaValue == (if LocationOf(m).kafkaKey in fields then fields[LocationOf(m).kafkaKey] else 0.0)
    ensures row.redpandaValue == (if LocationOf(m).redpandaKey in fields then fields[LocationOf(m).redpandaKey] else 0.0)
    ensures row.winner == Title(winner.GetOr("tie"))
  {
    var loc := LocationOf(m);
    Row(m,
        if loc.kafkaKey in fields then fields[loc.kafkaKey] else 0.0,
        if loc.redpandaKey in fields then fields[loc.redpandaKey] else 0.0,
        Title(winner.GetOr("tie")))
  }

  datatype ReportError = MetricNotADict(metric: RowMetric)   // `.get` on a non-dict raises

  /** The row a document gives a metric, if its entry is a dict. */
  predicate ReadsEntry(doc: Document, row: Row)
  {
    Reads(Entry(doc, row.metric), row)
  }

  /** A row read from an entry that is a dict. */
  predicate Reads(e: Option<MetricEntry>, row: Row)
  {
    e.Some? && e.value.MetricDict? && row == RowOf(row.metric, e.value.fields, e.value.winner)
  }

  /** The listed metrics, each with the entry the document has for it. */
  function EntriesOf(doc: Document, ms: seq<RowMetric>): (es: seq<(RowMetric, Option<MetricEntry>)>)
    ensures |es| == |ms|
    ensures forall i :: 0 <= i < |ms| ==> es[i] == (ms[i], Entry(doc, ms[i]))
  {
    seq(|ms|, i requires 0 <= i < |ms| => (ms[i], Entry(doc, ms[i])))
  }

  /** The rows for the listed metrics; a metric is skipped when its entry is
      missing, and the whole table fails on an entry that is not a dict. */
  function Rows(es: seq<(RowMetric, Option<MetricEntry>)>): (r: Result<seq<Row>, ReportError>)
    ensures r.Success? <==> forall i :: 0 <= i < |es| ==> es[i].1 != Some(NotADict)
    ensures r.Success? ==> |r.value| <= |es|
    ensures r.Failure? ==> exists i :: 0 <= i < |es| && es[i] == (r.error.metric, Some(NotADict))
  {
    if |es| == 0 then Success([])
    else
      var rest := Rows(es[1..]);
      assert forall i :: 1 <= i < |es| ==> es[i] == es[1..][i - 1];
      var e := es[0].1;
      if e.None? then rest
      else if e.value.NotADict? then Failure(MetricNotADict(es[0].0))
      else if rest.Failure? then rest
      else Success([RowOf(es[0].0, e.value.fields, e.value.winner)] + rest.value)
  }

  /** Every row printed is read from the entry of a listed metric. */
  lemma {:induction false} RowsRead(es: seq<(RowMetric, Option<MetricEntry>)>)
    requires Rows(es).Success?
    ensures forall k :: 0 <= k < |Rows(es).value| ==>
      exists i :: 0 <= i < |es| && es[i].0 == Rows(es).value[k].metric && Reads(es[i].1, Rows(es).value[k])
  {
    if |es| > 0 {
      RowsRead(es[1..]);
      var rows := Rows(es).value;
      var rest := Rows(es[1..]).value;
      forall k | 0 <= k < |rows|
        ensures exists i :: 0 <= i < |es| && es[i].0 == rows[k].metric && Reads(es[i].1, rows[k])
      {
        if es[0].1.None? {
          assert rows[k] == rest[k];
          var i :| 0 <= i < |es[1..]| && es[1..][i].0 == rest[k].metric && Reads(es[1..][i].1, rest[k]);
          assert es[i + 1] == es[1..][i];
        } else if k > 0 {
          assert rows[k] == rest[k - 1];
          var i :| 0 <= i < |es[1..]| && es[1..][i].0 == rest[k - 1].metric && Reads(es[1..][i].1, rest[k - 1]);
          assert es[i + 1] == es[1..][i];
        } else {
          assert Reads(es[0].1, rows[0]);
        }
      }
    }
  }

  /** Every listed metric with an entry gets a row. */
  lemma {:induction false} RowsCover(es: seq<(RowMetric, Option<MetricEntry>)>)
    requires Rows(es).Success?
    ensures forall i :: 0 <= i < |es| && es[i].1.Some? ==>
      exists k :: 0 <= k < |Rows(es).value| && Rows(es).value[k].metric == es[i].0
  {
    if |es| > 0 {
      RowsCover(es[1..]);
      var rows := Rows(es).value;
      var rest := Rows(es[1..]).value;
      forall i | 0 <= i < |es| && es[i].1.Some?
        ensures exists k :: 0 <= k < |rows| && rows[k].metric == es[i].0
      {
        if i == 0 {
          assert rows[0].metric == es[0].0;
        } else {
          assert es[i] == es[1..][i - 1];
          var k :| 0 <= k < |rest| && rest[k].metric == es[1..][i - 1].0;
          if es[0].1.Some? {
            assert rows[k + 1] == rest[k];
          } else {
            assert rows[k] == rest[k];
          }
        }
      }
    }
  }

  /** Rows keep the order of the listed metrics, none ranked before the first. */
  lemma {:induction false} RowsOrdered(es: seq<(RowMetric, Option<MetricEntry>)>)
    requires Rows(es).Success?
    requires forall i, j :: 0 <= i < j < |es| ==> Rank(es[i].0) < Rank(es[j].0)
    ensures forall k, l :: 0 <= k < l < |Rows(es).value| ==>
      Rank(Rows(es).value[k].metric) < Rank(Rows(es).value[l].metric)
    ensures forall k :: 0 <= k < |Rows(es).value| ==> Rank(es[0].0) <= Rank(Rows(es).value[k].metric)
  {
    if |es| > 0 {
      RowsOrdered(es[1..]);
      if |es| > 1 {
        assert es[1..][0] == es[1];
      }
    }
  }

  /** `print_summary_table`'s rows. */
  function SummaryTable(doc: Document): (r: Result<seq<Row>, ReportError>)
    ensures r.Success? <==> forall m: RowMetric :: Entry(doc, m) != Some(NotADict)
    ensures r.Success? ==> |r.value| <= 6
  {
    SummaryTableSucceeds(doc);
    Rows(EntriesOf(doc, RowMetrics))
  }

  lemma SummaryTableSucceeds(doc: Document)
    ensures Rows(EntriesOf(doc, RowMetrics)).Success? <==> forall m: RowMetric :: Entry(doc, m) != Some(NotADict)
  {
    var es := EntriesOf(doc, RowMetrics);
    RanksAreIndexes();
    if Rows(es).Success? {
      forall m: RowMetric
        ensures Entry(doc, m) != Some(NotADict)
      {
        assert es[Rank(m)] == (m, Entry(doc, m));
      }
    }
  }

  /** Every metric with an entry gets a row of the printed table. */
  lemma SummaryTableCovers(doc: Document, m: RowMetric)
    requires SummaryTable(doc).Success?
    requires Entry(doc, m).Some?
    ensures exists k :: 0 <= k < |SummaryTable(doc).value| && SummaryTable(doc).value[k].metric == m
  {
    var es := EntriesOf(doc, RowMetrics);
    RowsCover(es);
    RanksAreIndexes();
    var i := Rank(m);
    assert es[i] == (m, Entry(doc, m));
  }

  /** Every row of the printed table is read from its metric's entry. */
  lemma SummaryTableReads(doc: Document, k: nat)
    requires SummaryTable(doc).Success?
    requires k < |SummaryTable(doc).value|
    ensures ReadsEntry(doc, SummaryTable(doc).value[k])
  {
    var es := EntriesOf(doc, RowMetrics);
    RowsRead(es);
    var row := SummaryTable(doc).value[k];
    var i :| 0 <= i < |es| && es[i].0 == row.metric && Reads(es[i].1, row);
    assert es[i] == (RowMetrics[i], Entry(doc, RowMetrics[i]));
  }

  /** The printed rows follow the fixed metric order. */
  lemma SummaryTableOrdered(doc: Document)
    requires SummaryTable(doc).Success?
    ensures forall k, l :: 0 <= k < l < |SummaryTable(doc).value| ==>
      Rank(SummaryTable(doc).value[k].metric) < Rank(SummaryTable(doc).value[l].metric)
  {
    var es := EntriesOf(doc, RowMetrics);
    RanksAreIndexes();
    forall i, j | 0 <= i < j < |es|
      ensures Rank(es[i].0) < Rank(es[j].0)
    {
      assert es[i].0 == RowMetrics[i] && es[j].0 == RowMetrics[j];
    }
    RowsOrdered(es);
  }

  lemma SummaryTableRows(doc: Document)
    requires SummaryTable(doc).Success?
    ensures var rows := SummaryTable(doc).value;
      && (forall k :: 0 <= k < |rows| ==> ReadsEntry(doc, rows[k]))
      && (forall m: RowMetric :: Entry(doc, m).Some? ==> exists k :: 0 <= k < |rows| && rows[k].metric == m)
      && (forall k, l :: 0 <= k < l < |rows| ==> Rank(rows[k].metric) < Rank(rows[l].metric))
  {
    forall k | 0 <= k < |SummaryTable(doc).value|
      ensures ReadsEntry(doc, SummaryTable(doc).value[k])
    {
      SummaryTableReads(doc, k);
    }
    forall m: RowMetric | Entry(doc, m).Some?
      ensures exists k :: 0 <= k < |SummaryTable(doc).value| && SummaryTable(doc).value[k].metric == m
    {
      SummaryTableCovers(doc, m);
    }
    SummaryTableOrdered(doc);
  }

  /** Whether the engine emitted the section a row reads from. */
  predicate Emitted(c: ComparisonReport, m: RowMetric)
  {
    match m
    case ProducerThroughput | ProducerBandwidth => c.producer.Some?
    case ConsumerThroughput | ConsumerLatency => c.consumer.Some?
    case CpuUsage | MemoryUsage => c.resources.Some?
  }

  lemma LookupSkips<V>(first: seq<(string, V)>, rest: seq<(string, V)>, key: string)
    requires forall i :: 0 <= i < |first| ==> first[i].0 != key
    ensures Lookup(first + rest, key) == Lookup(rest, key)
  {
    if |first| > 0 {
      assert (first + rest)[0] == first[0];
      assert (first + rest)[1..] == first[1..] + rest;
      assert forall i :: 1 <= i < |first| ==> first[1..][i - 1] == first[i];
      LookupSkips(first[1..], rest, key);
    } else {
      assert first + rest == rest;
    }
  }

  lemma LookupMissing<V>(entries: seq<(string, V)>, key: string)
    requires forall i :: 0 <= i < |entries| ==> entries[i].0 != key
    ensures Lookup(entries, key) == None
  {
  }

  /** A saved section offers both of its metric entries under their keys. */
  lemma SectionEntries(key: string, first: (string, MetricEntry), second: (string, MetricEntry))
    requires first.0 != second.0
    ensures Lookup(Section(key, first, second), key) == Some(CategoryDict([first, second]))
    ensures Lookup([first, second], first.0) == Some(first.1)
    ensures Lookup([first, second], second.0) == Some(second.1)
  {
    assert [first, second][1..] == [second];
  }

  lemma ProducerEntry(c: ComparisonReport, m: RowMetric)
    requires m == ProducerThroughput || m == ProducerBandwidth
    ensures Entry(Encode(c), m).Some? <==> c.producer.Some?
    ensures Entry(Encode(c), m).Some? ==> Entry(Encode(c), m).value.MetricDict?
  {
    var p, q, r := EncodeProducer(c.producer), EncodeConsumer(c.consumer), EncodeResources(c.resources);
    assert Encode(c) == p + (q + r);
    LookupMissing(q + r, "producer");
    if c.producer.Some? {
      var v := c.producer.value;
      SectionEntries("producer",
                     ("throughput", MetricEntryOf(v.throughput, "kafka_msg_per_sec", "redpanda_msg_per_sec")),
                     ("bandwidth", MetricEntryOf(v.bandwidth, "kafka_mbps", "redpanda_mbps")));
    }
  }

  lemma ConsumerEntry(c: ComparisonReport, m: RowMetric)
    requires m == ConsumerThroughput || m == ConsumerLatency
    ensures Entry(Encode(c), m).Some? <==> c.consumer.Some?
    ensures Entry(Encode(c), m).Some? ==> Entry(Encode(c), m).value.MetricDict?
  {
    var p, q, r := EncodeProducer(c.producer), EncodeConsumer(c.consumer), EncodeResources(c.resources);
    assert Encode(c) == p + (q + r);
    LookupSkips(p, q + r, "consumer");
    LookupMissing(r, "consumer");
    if c.consumer.Some? {
      var v := c.consumer.value;
      SectionEntries("consumer",
                     ("throughput", MetricEntryOf(v.throughput, "kafka_msg_per_sec", "redpanda_msg_per_sec")),
                     ("latency", MetricEntryOf(v.latency, "kafka_avg_ms", "redpanda_avg_ms")));
      assert (q + r)[0] == q[0];
    } else {
      assert q + r == r;
    }
  }

  lemma ResourceEntry(c: ComparisonReport, m: RowMetric)
    requires m == CpuUsage || m == MemoryUsage
    ensures Entry(Encode(c), m).Some? <==> c.resources.Some?
    ensures Entry(Encode(c), m).Some? ==> Entry(Encode(c), m).value.MetricDict?
  {
    var p, q, r := EncodeProducer(c.producer), EncodeConsumer(c.consumer), EncodeResources(c.resources);
    LookupSkips(p + q, r, "resources");
    if c.resources.Some? {
      var v := c.resources.value;
      SectionEntries("resources",
                     ("cpu_usage", MetricEntryOf(v.cpuUsage, "kafka_avg_percent", "redpanda_avg_percent")),
                     ("memory_usage", MetricEntryOf(v.memoryUsage, "kafka_avg_percent", "redpanda_avg_percent")));
    }
  }

  /** On the engine's own output each row reads a dict entry exactly when
      its section was emitted. */
  lemma EngineEntry(c: ComparisonReport, m: RowMetric)
    ensures Entry(Encode(c), m).Some? <==> Emitted(c, m)
    ensures Entry(Encode(c), m).Some? ==> Entry(Encode(c), m).value.MetricDict?
  {
    match m
    case ProducerThroughput | ProducerBandwidth => ProducerEntry(c, m);
    case ConsumerThroughput | ConsumerLatency => ConsumerEntry(c, m);
    case CpuUsage | MemoryUsage => ResourceEntry(c, m);
  }

  /** The summary table of the engine's output never fails and prints
      exactly two rows per emitted section. */
  lemma EngineSummaryTable(c: ComparisonReport)
    ensures SummaryTable(Encode(c)).Success?
    ensures forall m: RowMetric :: Emitted(c, m) <==>
      exists k :: 0 <= k < |SummaryTable(Encode(c)).value| && SummaryTable(Encode(c)).value[k].metric == m
  {
    forall m: RowMetric
      ensures Entry(Encode(c), m) != Some(NotADict)
      ensures Entry(Encode(c), m).Some? <==> Emitted(c, m)
    {
      EngineEntry(c, m);
    }
    SummaryTableRows(Encode(c));
  }

  // ----- detailed section -----

  /** The configuration the detailed section lists: kafka's when its results
      carry one (even an empty one), else redpanda's, else none. */
  function SelectConfig(kafka: Option<ResultView>, redpanda: Option<ResultView>): (c: Config)
    ensures kafka.Some? && kafka.value.config.Some? ==> c == kafka.value.config.value
    ensures !(kafka.Some? && kafka.value.config.Some?) && redpanda.Some? && redpanda.value.config.Some? ==>
      c == redpanda.value.config.value
    ensures !(kafka.Some? && kafka.value.config.Some?) && !(redpanda.Some? && redpanda.value.config.Some?) ==>
      c == map[]
  {
    if kafka.Some? && kafka.value.config.Some? then kafka.value.config.value
    else if redpanda.Some? && redpanda.value.config.Some? then redpanda.value.config.value
    else map[]
  }

  /** The configuration shown for a completed comparison is the one the first
      platform that ran actually used. */
  lemma ShownConfigIsRunConfig(testName: string,
                               kafkaStarted: bool, kafkaResults: Orchestrator.TestResults,
                               redpandaStarted: bool, redpandaResults: Orchestrator.TestResults)
    ensures var run := Orchestrator.RunComparison(testName, Success(kafkaStarted), Success(kafkaResults),
                                                  Success(redpandaStarted), Success(redpandaResults)).1.value;
      var shown := SelectConfig(Some(run.kafkaResults), Some(run.redpandaResults));
      && (kafkaStarted ==> shown == kafkaResults.config)
      && (!kafkaStarted && redpandaStarted ==> shown == redpandaResults.config)
      && (!kafkaStarted && !redpandaStarted ==> shown == map[])
  {
  }
}

=== FILE: stats.dfy ===
/** Aggregates over sequences of real-valued measurements: the sum/len
    average, Python's `min`/`max`, `sorted`, the index-based percentile of
    the consumer, and the "per second when the duration is positive" rule
    shared by the producer and the consumer. */
module Stats {

  /** Bytes in one mebibyte, the divisor behind every `_mb`/`_mbps` figure. */
  const MiB: real := 1048576.0

  function Sum(s: seq<real>): real
  {
    if |s| == 0 then 0.0 else s[0] + Sum(s[1..])
  }

  /** `sum(values) / len(values)` */
  function Mean(s: seq<real>): real
    requires |s| > 0
  {
    Sum(s) / (|s| as real)
  }

  /** Python's `min` over a non-empty list. */
  function Min(s: seq<real>): (m: real)
    requires |s| > 0
    ensures m in s
    ensures forall i :: 0 <= i < |s| ==> m <= s[i]
  {
    if |s| == 1 then s[0]
    else
      var rest := Min(s[1..]);
      if s[0] <= rest then s[0] else rest
  }

  /** Python's `max` over a non-empty list. */
  function Max(s: seq<real>): (m: real)
    requires |s| > 0
    ensures m in s
    ensures forall i :: 0 <= i < |s| ==> s[i] <= m
  {
    if |s| == 1 then s[0]
    else
      var rest := Max(s[1..]);
      if s[0] >= rest then s[0] else rest
  }

  /** Every element within [lo, hi] bounds the sum by n*lo and n*hi. */
  lemma {:induction false} SumBounds(s: seq<real>, lo: real, hi: real)
    requires forall i :: 0 <= i < |s| ==> lo <= s[i] <= hi
    ensures (|s| as real) * lo <= Sum(s) <= (|s| as real) * hi
  {
    if |s| > 0 {
      assert forall i :: 0 <= i < |s[1..]| ==> s[1..][i] == s[i + 1];
      SumBounds(s[1..], lo, hi);
    }
  }

  /** n*lo <= a <= n*hi with n > 0 puts a/n within [lo, hi]. */
  lemma QuotientBounds(a: real, n: real, lo: real, hi: real)
    requires n > 0.0
    requires n * lo <= a <= n * hi
    ensures lo <= a / n <= hi
  {
    assert (a / n) * n == a;
  }

  /** The average of values within [lo, hi] is within [lo, hi]. */
  lemma MeanWithin(s: seq<real>, lo: real, hi: real)
    requires |s| > 0
    requires forall i :: 0 <= i < |s| ==> lo <= s[i] <= hi
    ensures lo <= Mean(s) <= hi
  {
    SumBounds(s, lo, hi);
    QuotientBounds(Sum(s), |s| as real, lo, hi);
  }

  /** The average lies between the minimum and the maximum. */
  lemma MeanBetweenMinAndMax(s: seq<real>)
    requires |s| > 0
    ensures Min(s) <= Mean(s) <= Max(s)
  {
    MeanWithin(s, Min(s), Max(s));
  }

  /** Python's `sorted` (ascending). */
  predicate Sorted(s: seq<real>)
  {
    forall i, j :: 0 <= i <= j < |s| ==> s[i] <= s[j]
  }

  function Insert(x: real, s: seq<real>): (r: seq<real>)
    requires Sorted(s)
    ensures Sorted(r)
    ensures multiset(r) == multiset(s) + multiset{x}
    ensures |r| == |s| + 1
    ensures r[0] == (if |s| == 0 || x <= s[0] then x else s[0])
  {
    if |s| == 0 then [x]
    else if x <= s[0] then [x] + s
    else
      var tail := Insert(x, s[1..]);
      assert s == [s[0]] + s[1..];
      ConsSorted(s[0], tail);
      [s[0]] + tail
  }

  /** Putting a value no greater than the head in front keeps a sequence sorted. */
  lemma ConsSorted(a: real, t: seq<real>)
    requires Sorted(t) && |t| > 0 && a <= t[0]
    ensures Sorted([a] + t)
  {
    forall i, j | 0 <= i <= j < |[a] + t|
      ensures ([a] + t)[i] <= ([a] + t)[j]
    {
      if i > 0 {
        assert ([a] + t)[i] == t[i - 1];
      }
      if j > 0 {
        assert ([a] + t)[j] == t[j - 1];
      }
    }
  }

  /** Ascending sort: a sorted permutation of its input. */
  function Sort(s: seq<real>): (r: seq<real>)
    ensures Sorted(r)
    ensures multiset(r) == multiset(s)
  {
    if |s| == 0 then []
    else
      assert s == [s[0]] + s[1..];
      Insert(s[0], Sort(s[1..]))
  }

  /** `int((p / 100.0) * n)`, clamped to the last index, computed exactly. */
  function PercentileIndex(p: nat, n: nat): (k: nat)
    requires n > 0
    ensures k < n
    ensures k == n - 1 || (k * 100 <= p * n < k * 100 + 100)
    ensures k < n - 1 ==> k * 100 <= p * n < k * 100 + 100
    ensures k * 100 <= p * n
  {
    var raw := (p * n) / 100;
    if raw >= n then n - 1 else raw
  }

  /** The consumer's `_percentile`: 0 for no data, else the sorted element at the index. */
  function Percentile(data: seq<real>, p: nat): (r: real)
    ensures |data| == 0 ==> r == 0.0
    ensures |data| > 0 ==> r in data
  {
    if |data| == 0 then 0.0
    else
      var sorted := Sort(data);
      assert |sorted| == |multiset(sorted)| == |multiset(data)| == |data|;
      var r := sorted[PercentileIndex(p, |data|)];
      assert r in multiset(sorted);
      r
  }

  /** How many values of `s` lie below `x`: strictly, or also those equal to
      it when `inclusive`. */
  function CountBelow(s: seq<real>, x: real, inclusive: bool): (c: nat)
    ensures c <= |s|
  {
    if |s| == 0 then 0
    else (if s[0] < x || (inclusive && s[0] == x) then 1 else 0) + CountBelow(s[1..], x, inclusive)
  }

  lemma {:induction false} CountBelowAppend(a: seq<real>, b: seq<real>, x: real, inclusive: bool)
    ensures CountBelow(a + b, x, inclusive) == CountBelow(a, x, inclusive) + CountBelow(b, x, inclusive)
  {
    if |a| > 0 {
      assert (a + b)[1..] == a[1..] + b;
      CountBelowAppend(a[1..], b, x, inclusive);
    } else {
      assert a + b == b;
    }
  }

  /** Removing the element at index j removes its contribution to the count. */
  lemma CountBelowRemove(b: seq<real>, j: nat, x: real, inclusive: bool)
    requires j < |b|
    ensures CountBelow(b, x, inclusive) ==
      CountBelow(b[..j] + b[j + 1..], x, inclusive) + (if b[j] < x || (inclusive && b[j] == x) then 1 else 0)
  {
    assert b == b[..j] + ([b[j]] + b[j + 1..]);
    CountBelowAppend(b[..j], [b[j]] + b[j + 1..], x, inclusive);
    CountBelowAppend(b[..j], b[j + 1..], x, inclusive);
    assert ([b[j]] + b[j + 1..])[1..] == b[j + 1..];
  }

  lemma MultisetRemove(b: seq<real>, j: nat)
    requires j < |b|
    ensures multiset(b[..j] + b[j + 1..]) == multiset(b) - multiset{b[j]}
  {
    assert b == b[..j] + [b[j]] + b[j + 1..];
  }

  /** The count depends only on the multiset of values. */
  lemma {:induction false} CountBelowPermutation(a: seq<real>, b: seq<real>, x: real, inclusive: bool)
    requires multiset(a) == multiset(b)
    ensures CountBelow(a, x, inclusive) == CountBelow(b, x, inclusive)
  {
    if |a| == 0 {
      assert |b| == |multiset(b)| == 0;
    } else {
      assert a[0] in multiset(b);
      var j :| 0 <= j < |b| && b[j] == a[0];
      var rest := b[..j] + b[j + 1..];
      MultisetRemove(b, j);
      assert a == [a[0]] + a[1..];
      assert multiset(rest) == multiset(a[1..]);
      CountBelowPermutation(a[1..], rest, x, inclusive);
      CountBelowRemove(b, j, x, inclusive);
    }
  }

  /** In a sorted sequence the element at index k has at most k values
      strictly below it and more than k at or below it. */
  lemma {:induction false} SortedRank(t: seq<real>, k: nat)
    requires Sorted(t) && k < |t|
    ensures CountBelow(t, t[k], false) <= k < CountBelow(t, t[k], true)
  {
    SortedRankBelow(t, k);
    SortedRankAtMost(t, k);
  }

  lemma SortedRankBelow(t: seq<real>, k: nat)
    requires Sorted(t) && k < |t|
    ensures CountBelow(t, t[k], false) <= k
  {
    assert t == t[..k] + t[k..];
    CountBelowAppend(t[..k], t[k..], t[k], false);
    NoneBelow(t[k..], t[k]);
  }

  lemma SortedRankAtMost(t: seq<real>, k: nat)
    requires Sorted(t) && k < |t|
    ensures k < CountBelow(t, t[k], true)
  {
    assert t == t[..k + 1] + t[k + 1..];
    CountBelowAppend(t[..k + 1], t[k + 1..], t[k], true);
    AllAtMost(t[..k + 1], t[k]);
  }

  lemma {:induction false} NoneBelow(s: seq<real>, x: real)
    requires forall i :: 0 <= i < |s| ==> x <= s[i]
    ensures CountBelow(s, x, false) == 0
  {
    if |s| > 0 {
      assert forall i :: 0 <= i < |s[1..]| ==> s[1..][i] == s[i + 1];
      NoneBelow(s[1..], x);
    }
  }

  lemma {:induction false} AllAtMost(s: seq<real>, x: real)
    requires forall i :: 0 <= i < |s| ==> s[i] <= x
    ensures CountBelow(s, x, true) == |s|
  {
    if |s| > 0 {
      assert forall i :: 0 <= i < |s[1..]| ==> s[1..][i] == s[i + 1];
      AllAtMost(s[1..], x);
    }
  }

  /** The percentile is the value of rank k = PercentileIndex(p, n) in the
      data: at most k values lie strictly below it, more than k at or below it. */
  lemma PercentileRank(data: seq<real>, p: nat)
    requires |data| > 0
    ensures var r, k := Percentile(data, p), PercentileIndex(p, |data|);
      CountBelow(data, r, false) <= k < CountBelow(data, r, true)
  {
    var sorted := Sort(data);
    assert |sorted| == |multiset(sorted)| == |multiset(data)| == |data|;
    var k := PercentileIndex(p, |data|);
    SortedRank(sorted, k);
    CountBelowPermutation(sorted, data, sorted[k], false);
    CountBelowPermutation(sorted, data, sorted[k], true);
  }

  lemma ProductMonotone(p: nat, q: nat, n: nat)
    requires p <= q
    ensures p * n <= q * n
  {
    assert q * n == p * n + (q - p) * n;
  }

  lemma PercentileIndexMonotone(p: nat, q: nat, n: nat)
    requires n > 0 && p <= q
    ensures PercentileIndex(p, n) <= PercentileIndex(q, n)
  {
    ProductMonotone(p, q, n);
    var a, b := p * n, q * n;
    assert a / 100 <= b / 100 by {
      assert a == (a / 100) * 100 + a % 100;
      assert b == (b / 100) * 100 + b % 100;
    }
  }

  /** A larger percentile never selects a smaller value. */
  lemma PercentileMonotone(data: seq<real>, p: nat, q: nat)
    requires p <= q
    ensures Percentile(data, p) <= Percentile(data, q)
  {
    if |data| > 0 {
      var sorted := Sort(data);
      assert |sorted| == |multiset(sorted)| == |multiset(data)| == |data|;
      PercentileIndexMonotone(p, q, |data|);
    }
  }

  /** Every percentile of non-empty data lies between its minimum and maximum. */
  lemma PercentileWithinRange(data: seq<real>, p: nat)
    requires |data| > 0
    ensures Min(data) <= Percentile(data, p) <= Max(data)
  {
    var r := Percentile(data, p);
    var i :| 0 <= i < |data| && data[i] == r;
  }

  /** `amount / duration if duration > 0 else 0` */
  function PerSecond(amount: real, duration: real): (r: real)
    ensures duration > 0.0 ==> r * duration == amount
    ensures duration <= 0.0 ==> r == 0.0
  {
    if duration > 0.0 then amount / duration else 0.0
  }

  /** `bytes / (1024 * 1024)` */
  function ToMiB(bytes: int): (r: real)
    ensures r * MiB == bytes as real
    ensures bytes >= 0 ==> r >= 0.0
  {
    (bytes as real) / MiB
  }
}

=== FILE: wrappers.dfy ===
/** Failure-compatible wrappers used across the model.
    Option<T> stands for a dictionary key that may be absent; Result<T, E>
    stands for a Python call that either returns a value or raises. */
module Wrappers {

  /** A value that may be missing (a dict key that is not present). */
  datatype Option<T> = None | Some(value: T) {

    predicate IsFailure() {
      None?
    }

    function PropagateFailure<U>(): Option<U>
      requires None?
    {
      None
    }

    function Extract(): T
      requires Some?
    {
      value
    }

    /** `d.get(key, default)` */
    function GetOr(default: T): T {
      match this
      case Some(v) => v
      case None => default
    }
  }

  /** Either the value a call returns or the exception it raises. */
  datatype Result<T, E> = Success(value: T) | Failure(error: E) {

    predicate IsFailure() {
      Failure?
    }

    function PropagateFailure<U>(): Result<U, E>
      requires Failure?
    {
      Failure(error)
    }

    function Extract(): T
      requires Success?
    {
      value
    }
  }
}
